=== FILE: README.md ===
# Backbone–Couchbase sync adapter, modelled in Dafny

This project models the decision logic of a Couchbase persistence adapter for Backbone
models and collections, in both generations: `index.js` (older) and `build/index.js`
(newer, which adds view options, N1QL reads and raw `docIds` reads). It also models the
N1QL index checker, `build/N1qlIndexesChecker.js`, and the `IndexModel` record it builds
(`build/IndexModel.js`).

What the model covers:

- **Key codec** (`KeyCodec`, `Uri`). `_keyFormat` percent-decodes a resource path with
  `decodeURIComponent`, strips one leading `/`, and replaces every `/` with the separator,
  expanding the `$` patterns a replacement string may hold (`$$`, `$&`, `` $` ``, `$'`,
  section 22.1.3.19.1 of ECMA-262).
  `_keysFormat` maps it over an id list. Decoding is modelled in full: UTF-8 multi-byte
  escapes are decoded and malformed escapes raise URIError. `encodeURIComponent` is modelled
  too, and the round trip between the two is proved.
- **Error translator** (`ErrorTranslator`). `_couchbaseErrorFormat` maps code 13 to 404 and
  code 12 to 409. Everything else maps to 500. Translation is skipped when `httpError` is off.
- **Response shaping** (`ResultNormalizer`). This is the success branch of
  `couchbase_callback`, in both generations.
- **Adapter construction** (`Config`). It covers the store-handle validation, the
  `httpError`/`sep` defaults, and the insert / upsert / keep choice made for each declared
  design document.
- **Sync dispatcher** (`SyncCommon`, `ViewQueries`, `SyncOlder`, `SyncNewer`). A call is a
  run against a sequence of store replies. Each issued operation (`get`, `getMulti`,
  `insert`, `replace`, `remove`, view query, N1QL query, index check, join hook) takes the
  next reply. The run records the operations issued, in order, and how the returned promise
  settles: resolved, rejected with the translated error, thrown synchronously, or still
  pending when the replies run out. A model's `url` is either a string or Backbone's own
  `url` method, so `model.url()` on a string throws, as does `model.url.split` on a method.
  A collection's member class is Backbone's default `Backbone.Model` unless the application
  names another, so the newer ids read goes through member URLs, and throws for the default
  class, which has no URL root; the case without a member class is one where the application
  has set `model` to null.
- **Index checker** (`IndexModel`, `IndexChecker`). Three readings are modelled: the file
  as written, its evident data flow, and the reconciliation its description promises. The
  CREATE statements are sent at once, so their answers are modelled as arrivals, each naming
  the statement it answers, in the order the store gives them.

JavaScript values are modelled by `JsValues.Json`. Truthiness, `||`, `!= null`, property
reads, string conversion, `_.extend`, `for .. in` and `_.isEqual` are each written out.
Objects are association lists kept in insertion order; `for .. in` visits the keys that are
array indices first, in ascending numeric order, and then the other keys in insertion order
(section 10.1.11.1 of ECMA-262). Numbers are integers.

## Model

| member | source | states |
|---|---|---|
| KeyCodec.KeyFormat | build/index.js:98-102 | a key exists exactly when the path decodes; it is the decoded path with one leading `/` removed and every other `/` replaced by the separator with its `$` patterns expanded; for a separator without `$` it is the remaining `/`-separated parts joined by the separator, and a separator without `$` or `/` leaves no `/`; no separator leaves the decoded path |
| KeyCodec.KeysFormat | build/index.js:84-92 | one key per id, same length and order, key i is the key of `url + "/" + id_i`; the call fails exactly when some id's path does not decode |
| KeyCodec.ReplaceWithoutPatterns | build/index.js:101 | a separator without `$` is inserted as it is, once for every `/` |
| KeyCodec.MatchPatternKeepsSlash | build/index.js:101 | the separator `$&` puts back the slash it replaces: `/a/b` has the key `a/b` |
| KeyCodec.FlattenIsJoin | build/index.js:98-102 | for a separator without `$`, flattening a decoded path joins its `/`-separated parts after the leading slash with the separator, and leaves no `/` when the separator has none |
| KeyCodec.ReplaceIsJoinOfSplit | build/index.js:101 | inserting the separator literally for every `/` equals splitting at `/` and joining the parts with the separator |
| KeyCodec.KeyOfSegments | build/index.js:98-102 | for a separator without `$` and segments free of `/` and `%`, the key of `/s1/s2/.../sn` is `s1 sep s2 ... sep sn`; so `/a/b/c` gives `a::b::c` and `//a` gives `::a` |
| KeyCodec.KeyOfEncodedPath | build/index.js:98-102 | decoding comes first: the key of an encoded path is the flattened original path, escaped slashes included |
| KeyCodec.NoSlashInKey | build/index.js:101 | a separator free of `/`, inserted literally, leaves no `/` in the key |
| Uri.DecodeEncode | build/index.js:99 | `decodeURIComponent(encodeURIComponent(s)) == s` for every string |
| Uri.DecodeWithoutEscapes | build/index.js:99 | a path without `%` decodes to itself |
| Uri.Utf8Decodes | build/index.js:99 | every UTF-8 sequence the encoder writes decodes back to its character |
| ErrorTranslator.FormatError | build/index.js:108-129 | translation off returns the error itself; otherwise 404 iff code 13, 409 iff code 12, each with `error.toString()`, and 500 for anything else with `result` when truthy and the error otherwise |
| ErrorTranslator.ReportError | build/index.js:161-166 | the one-argument reporter: the store result passed alongside an error is dropped, so a 500 always carries the error itself |
| Config.ValidateStore | index.js:72-80 | throws iff neither `bucket` nor `connection` is given, or a `connection` lacks `cluster` or `bucket`, with the matching message; a given `bucket` wins |
| Config.DefaultSettings | build/index.js:484-485 | as written: translation is always on, and any falsy `sep` gives `"::"` |
| Config.ExplicitSettings | build/index.js:69-70 | as documented: translation iff `httpError` is truthy, `sep: false` turns flattening off, a missing `sep` gives `"::"` |
| Config.SettingsAgreeOnTruthyOptions | index.js:88-89 | the two readings agree when `httpError` is truthy and `sep` is truthy or missing |
| Config.FalseOptionsIgnored | build/index.js:484-485 | `{sep: false, httpError: false}` still gives `"::"` and translation as written |
| Config.ConstructOlder | index.js:70-90 | a missing options object fails with a TypeError; otherwise construction succeeds iff the store checks pass, with translation on |
| Config.ConstructNewer | build/index.js:74-485 | a missing options object is read as `{}` and fails the store check; otherwise construction succeeds iff the store checks of lines 411-414 and 459-466 pass, fails with their error, and takes the `\|\|` defaults of lines 484-485 |
| Config.ConstructorsAgree | build/index.js:74-78 | given an options object, both generations build the same adapter or throw the same error; on a missing one both throw, with different errors |
| Config.DesignDocAction | build/index.js:420-446 | keep iff the stored design document is deep-equal to the declared one, upsert iff it differs, insert iff the fetch failed with missing/not_found/deleted, abort on any other fetch error |
| Config.DesignDocConverges | build/index.js:435-445 | a fetched design document deep-equal to the declared one is kept, so once the declared one is stored the next pass writes nothing |
| ResultNormalizer.ShapeOlder | index.js:213-231 | a list is reduced to its first row's value (or 0) iff `reduce` is truthy, else the row values in order; with `ids` the mapping's values in `for .. in` order (array-index keys ascending, then the others in insertion order); otherwise `result.value` |
| ResultNormalizer.ShapeNewer | build/index.js:210-234 | a list from a reduced query gives the first value or 0 when ungrouped and per-row `value[0] \|\| value` when grouped; any other list gives the row values; `ids` or `docIds` give the mapping's values in `for .. in` order; otherwise `result.value` |
| ResultNormalizer.GroupedUnwrap | build/index.js:213-218 | a grouped row whose value the store wrapped as a one-element list with a truthy element is unwrapped, and a scalar value is kept |
| ResultNormalizer.ShapeNewerAsWritten | build/index.js:226 | as written, a non-list result without `ids` throws a ReferenceError; otherwise it equals `ShapeNewer` |
| ResultNormalizer.SingleDocumentReadThrowsAsWritten | build/index.js:226-233 | reading one document `{value: {a: 1}}` throws as written and gives `{a: 1}` as intended |
| ResultNormalizer.GenerationsAgree | build/index.js:210-234 | the generations shape alike when the newer one reduces exactly when `reduce` is truthy, no grouping is asked for and `docIds` plays no part |
| ResultNormalizer.MultiGetValuesInOrder | index.js:223-228 | a multi-get answer lists one value per mapping entry, in `for .. in` order, which is the listed order when no id is an array index; both generations agree |
| ResultNormalizer.MultiGetSortsIndexIds | index.js:223-228 | the ids `"10"` and `"2"` answer the value of `"2"` first, then that of `"10"` |
| IndexModel.New | build/IndexModel.js:47-52 | the name is kept; `is_primary` is always truthy; a falsy `is_primary` becomes `true`; `using` and `index_key` are kept when truthy and otherwise become `"GSI"` and `[]` |
| IndexModel.NewExplicit | build/IndexModel.js:41-52 | as intended: `is_primary` is the truthiness of the argument; the other fields as written |
| IndexModel.NewIsIdempotent | build/IndexModel.js:47-52 | rebuilding a model from its own fields changes nothing |
| IndexModel.FalsePrimaryIgnored | build/IndexModel.js:49 | an explicit `is_primary: false` still gives a primary index as written, and a secondary one as intended |
| IndexChecker.WithPrimary | build/N1qlIndexesChecker.js:23-28 | the caller's list grows by the primary entry, at position 0 |
| IndexChecker.UnionBatch | build/N1qlIndexesChecker.js:38-44 | the creation batch is every wanted model followed by every existing one, because union by identity never matches fresh objects |
| IndexChecker.RenderCreate | build/N1qlIndexesChecker.js:51-58 | a primary entry renders `CREATE PRIMARY INDEX ON ...`, any other `CREATE <name> ON ... (<keys>) USING ...;`, and keys that are not a list throw |
| IndexChecker.RenderCreateFixed | build/N1qlIndexesChecker.js:56 | the secondary statement with the INDEX keyword; primary statements unchanged |
| IndexChecker.SecondaryKeywordLatent | build/N1qlIndexesChecker.js:51-58 | as written `byType` is made primary, so no secondary statement is rendered; read as intended, it renders `CREATE `byType` ON ...` without INDEX, and the fixed rendering adds it |
| IndexChecker.SecondaryStatementLacksIndexKeyword | build/N1qlIndexesChecker.js:56 | every secondary statement opens with `CREATE` followed directly by the quoted name, so the INDEX keyword is missing as written; the fixed one opens with `CREATE INDEX` |
| IndexChecker.RenderAll | build/N1qlIndexesChecker.js:51-58 | one statement per batch entry, in batch order, or the error of an entry that cannot be rendered |
| IndexChecker.FirstRefusal | build/N1qlIndexesChecker.js:67-73 | no error iff no answer to a sent statement refuses it; otherwise the error of the first refusal to arrive |
| IndexChecker.Settle | build/N1qlIndexesChecker.js:67-73 | `async.map` passes iff every statement is answered and none is refused, waits iff some statement is unanswered and none is refused, and otherwise fails with the first refusal to arrive; it never crashes |
| IndexChecker.Check | build/N1qlIndexesChecker.js:21-82 | the primary entry is prepended; a failed listing is reported with no statement sent; otherwise one statement per wanted and existing index, settled as `async.map` settles them, and the run passes iff every statement is answered and every answer is a creation |
| IndexChecker.CheckCreatesEverythingAsPrimary | build/N1qlIndexesChecker.js:44-58 | every statement of a checker run is a PRIMARY one |
| IndexChecker.CheckAsWritten | build/N1qlIndexesChecker.js:23-30 | as written the list is mutated and then the call throws a ReferenceError before any query |
| IndexChecker.CreationOutcomeAsWritten | build/N1qlIndexesChecker.js:59-66 | as written the run crashes iff some answer is a refusal, and then with the error of the first refusal to arrive, the one the evident data flow reports; without a refusal both end alike |
| IndexChecker.RefusedCreateCrashesAsWritten | build/N1qlIndexesChecker.js:59-73 | a refused primary statement crashes the run as written and reaches the callback in the evident data flow |
| IndexChecker.UnionRecreatesExisting | build/N1qlIndexesChecker.js:44 | with nothing wanted and one existing index, two CREATE statements are sent |
| IndexChecker.DuplicatePrimaryRefused | build/N1qlIndexesChecker.js:44-66 | with the primary index present, the same `CREATE PRIMARY INDEX` statement is sent twice; the store answers both with "already exists", in either order, and the first answer to arrive fails the check, and crashes it as written |
| IndexChecker.PresentPrimaryReconciled | build/N1qlIndexesChecker.js:15 | the reconciliation finds the primary index in the catalog, sends nothing and passes |
| IndexChecker.Missing | build/N1qlIndexesChecker.js:15 | the wanted indexes absent from the catalog, without duplicates; every wanted index is in the catalog or in the result |
| IndexChecker.Reconcile | build/N1qlIndexesChecker.js:15 | a failed listing is reported; at most one statement per wanted index; a passing run answered every statement without a failure ("already exists" is tolerated) and leaves every wanted index in the catalog; the statements sent are exactly the fixed renderings of the missing wanted indexes, settled with "already exists" tolerated |
| IndexChecker.ReconcileSendsOnlyMissing | build/N1qlIndexesChecker.js:15 | every statement the reconciliation sends creates a wanted index the catalog lacks, rendered with the INDEX keyword |
| IndexChecker.MissingIsIdempotent | build/N1qlIndexesChecker.js:15 | after creating the missing indexes nothing is missing |
| IndexChecker.ReconcileTwiceSendsNothing | build/N1qlIndexesChecker.js:15 | a second reconciliation against the catalog a passing run left sends no statement and passes |
| JsValues.AssignLookup | build/index.js:386-387 | after `_.extend`, each key the source binds has the source's value, and every other key keeps the target's value |
| JsValues.AssignKeepsKeys | build/index.js:387 | `_.extend` keeps the target's keys, in order, as a prefix |
| JsValues.DeepEqualReflexive | build/index.js:435 | a well-formed document is deep-equal to itself |
| JsValues.ForInOrder | build/index.js:226-231 | the entries visited by `for .. in` are the object's entries, each once: array-index keys first, ascending, then the other keys in insertion order |
| JsValues.FieldValues | index.js:223-228 | one `.value` per entry, taken in `for .. in` order |
| JsValues.ForInOrderWithoutIndexKeys | index.js:223-228 | an object with no array-index key is visited in insertion order |
| JsValues.ForInVisitsIndexKeysAscending | build/index.js:226-231 | the mapping `{"10": {value: x}, "2": {value: y}}` yields `[y, x]` |
| SyncCommon.AssignId | build/index.js:268-270 | the model is no longer new and its id attribute holds the fresh id |
| SyncCommon.UrlValue | index.js:292 | a string `url` is converted as it is, and a `url` method converts to its source text |
| SyncCommon.UrlCall | build/index.js:377 | calling a string `url` throws a TypeError; a collection's method answers its URL; a model's answers its base, followed by its encoded id once it has one, and throws when the base is empty |
| SyncCommon.TargetKey | build/index.js:377 | the key of `model.url()`: the error the call throws, the URIError of an undecodable URL, or the formatted key |
| SyncCommon.MemberUrl | build/index.js:296-303 | an object id is read through the member's id attribute, any other id is used as it is; a member class without a URL root throws |
| SyncCommon.Callback | build/index.js:198-254 | an error is reported and nothing else happens; a result is shaped and either resolved or handed to the model's `join` (when `join === true`) or to the `join` function option |
| SyncCommon.AwaitJoin | build/index.js:236-252 | the join hook's error rejects the promise, and its data resolves it |
| SyncCommon.WriteThenGet | build/index.js:271-277 | a refused write is reported with no other operation; an accepted one is followed by a `get` of the same key |
| SyncCommon.Create | build/index.js:267-277 | nothing is issued iff the key of the model's URL (after a new model gets the fresh id) throws; otherwise the model's document is inserted under that key, a refused insert is reported and stops the call, and an accepted one is followed by a `get` of the same key |
| SyncCommon.Update | build/index.js:278-285 | nothing is issued iff the key throws; otherwise the model's document replaces the stored one, a refused replace is reported and stops the call, and an accepted one is followed by a `get` of the same key on whose answer the call settles |
| SyncCommon.Patch | build/index.js:379-395 | nothing is issued iff the key throws; the stored document is read first, and a failed read is reported and stops the call; otherwise the stored document with the model's attributes copied onto it replaces it, and the call settles on a final `get` of the same key |
| SyncCommon.Delete | build/index.js:396-397 | nothing is issued iff the key throws; otherwise exactly one `remove` of the key, on whose answer the call settles |
| SyncCommon.Unknown | build/index.js:398-402 | an unknown verb issues nothing and is rejected with the code-500 error |
| SyncCommon.UnknownMethodError | build/index.js:399-402 | the error has code 500 and its message starts with the verb |
| SyncCommon.WrappedIds | build/index.js:288-290 | a string `ids` becomes a one-element list; anything else is kept |
| SyncCommon.CreateReadsBackSameKey | build/index.js:267-277 | an accepted create issues exactly an insert and a `get` of the same key and settles on that `get`; a new model's document carries the fresh id |
| SyncCommon.PatchMergesIntoStored | build/index.js:380-388 | the replaced document keeps every stored key the model does not bind, and takes the model's value on every key it does |
| SyncCommon.RefusedWriteStops | index.js:268-326 | create, update, patch and delete stop after one operation when the store refuses it, and report the error |
| ViewQueries.RequestedIff | build/index.js:318-365 | an option's setter is called iff the option is set, and every call forwards a listed option |
| ViewQueries.OlderView | index.js:295 | the design document is `designDocument \|\| url` and the view `viewName \|\| defaultView` |
| ViewQueries.OlderViewSettings | index.js:295-302 | `custom` and `stale` are forwarded iff set, and the one `reduce` setting is truthy iff `options.reduce` is |
| ViewQueries.NewerView | build/index.js:315-317 | a model whose `url` is a method throws unless `designDocument` and `viewName` are both truthy; otherwise a truthy `designDocument` or `viewName` wins, and each falls back to the first or second `/`-separated part of the URL, the view to undefined when there is none; the settings are the newer setters |
| ViewQueries.ViewNames | build/index.js:315-316 | splitting a `url` method throws exactly when a truthy `designDocument` or `viewName` does not short-circuit it; otherwise the names fall back to the URL's first and second `/`-separated parts |
| ViewQueries.NewerViewForwards | build/index.js:318-365 | every view option other than `reduce` is forwarded to the newer query iff it is set |
| ViewQueries.NewerViewSettings | build/index.js:318-365 | every view option is forwarded iff set; `reduce` is set once, to true iff the model is not a collection and `reduce` is missing, or `reduce` is truthy |
| ViewQueries.NewerViewAsWritten | build/index.js:360-362 | as written, setting `skip` throws a ReferenceError; otherwise the query is `NewerView` |
| ViewQueries.SkipThrowsAsWritten | build/index.js:360-362 | any present `skip` throws as written and reaches the query as intended |
| SyncOlder.Read | index.js:283-307 | a collection with non-list `ids` is refused with no operation, and with a list it multi-gets the keys of `url + "/" + id` (the `url` converted without calling it); a collection without `ids` queries its view; a model gets its own key, or throws when that key throws |
| SyncOlder.Sync | index.js:264-332 | a truthy `create` option or the verb `create` creates; otherwise `update`, `read`, `patch` and `delete` each run their own branch; an unknown verb issues nothing and is rejected; no call issues more than four operations |
| SyncOlder.VerbRouting | index.js:264-332 | `create` inserts the model's document under its key, whatever the verb when the option is set; `update` first replaces it, `patch` first reads it, `delete` removes it and settles on that answer; when the key throws none of them sends anything |
| SyncOlder.IdsReadGetsEachKey | index.js:285-292 | a collection with a string `url`, read by ids, multi-gets one key per id, in order, and answers the mapping's values in `for .. in` order |
| SyncOlder.IdsMustBeAList | index.js:286-291 | `ids` that are neither a string nor a list give the 500 error "options.ids must be a String or an Array!" with no operation |
| SyncOlder.TodoKey | index.js:110-114 | the todo under `/todos` with an id of unreserved characters has the key `todos`, the separator and the id, as in `todos::42` |
| SyncOlder.CreateTodoExample | index.js:264-274 | creating a new todo with any separator without `$` and any id of unreserved characters inserts it under `todos`, the separator and the id, reads that key back, and resolves with the stored document |
| SyncNewer.MemberKey | build/index.js:294-308 | with a member class (Backbone's default one included) the key is that of the member's URL, and a member class without a URL root throws; without one, which needs the application to unset `model`, the key is that of `url + "/" + id` |
| SyncNewer.MemberKeys | build/index.js:294-309 | one key per id in order, or the error of some id that has no key |
| SyncNewer.DefaultMemberIdsReadThrows | build/index.js:296-303 | a collection with Backbone's default member class, which has no URL root, throws on every ids read before asking the store |
| SyncNewer.KeysAgreeWithoutMemberClass | build/index.js:305-308 | when the application has unset the member class, the newer ids keys equal the older `_keysFormat` |
| SyncNewer.N1qlRead | build/index.js:367-375 | the index check comes first; once it answers, which needs the check's intended data flow, `model.url()` is sent as the statement, with `params` when given, and a `url` that cannot be called crashes the run inside the check's callback |
| SyncNewer.IndexCheckOutcomeIgnored | build/index.js:368-369 | a failed and a passed index check lead to the same query and the same outcome |
| SyncNewer.Read | build/index.js:286-378 | read routing, first match wins: ids, then docIds, then designDocument (or its thrown split error), then N1ql, then a single `get` of the model's key, or the error that key throws |
| SyncNewer.Sync | build/index.js:267-403 | a truthy `create` option or the verb `create` creates; otherwise `update`, `read`, `patch` and `delete` each run their own branch; an unknown verb issues nothing and is rejected; no call issues more than four operations |
| SyncNewer.VerbRouting | build/index.js:267-403 | `create` inserts the model's document under its key, whatever the verb when the option is set; `update` first replaces it, `patch` first reads it, `delete` removes it and, with line 226 as intended, settles on that answer; when the key throws none of them sends anything |
| SyncNewer.DeleteAnswerThrowsAsWritten | build/index.js:226 | a delete answered with any object resolves with that object's `value` as intended, while the callback as written throws a ReferenceError on it |
| SyncNewer.IdsBeforeDocIds | build/index.js:287-313 | with both `ids` and `docIds` the member keys are fetched |
| SyncNewer.StringUrlIsNotCallable | build/index.js:369-397 | with a string `url`, every `model.url()` call throws: the model's key, update and delete throw before any operation, and an N1QL read crashes once the index check answers, as intended |
| SyncNewer.ViewReadReducesModelsOnly | build/index.js:315-359 | a view read without `reduce` answers the first row's value for a model and every row's value for a collection; a model whose `url` is a method and that lacks a truthy `designDocument` or `viewName` throws before any query |
| SyncNewer.ViewReadAnswered | build/index.js:354-359 | a view read that builds its query issues that one query and answers the first row's value for a model and every row's value for a collection |
| SyncNewer.PagedViewRead | build/index.js:360-366 | a collection view read with `skip` throws as written; as intended the query carries `skip` and every other set option |

## Left out

- Trace logging (`options.trace` and `console.log`), the `request` event, the
  `options.success`/`options.error` callbacks and the `cbError`/`cbResult` debug fields are
  left out. They only repeat the outcome, or are I/O.
- The override of `Backbone.Collection.prototype.fetch` and its parallel join fan-out are
  left out. They are framework mutation plus concurrency.
- Opening the cluster and bucket and the promise plumbing are left out; the store is a
  sequence of replies.
- The view and N1QL query builders of the driver are reduced to records: a view query is its
  design document, its view name and the setter calls in order.
- `uuid.v4()` is a fresh-id parameter. `idGen` is read by both constructors but never used.
- The design-document convergence at set-up is reduced to its per-document decision,
  `Config.DesignDocAction`. The fetches, writes and `async.map` are left out.
- An error value `0`, and an error with a `length`, are not modelled. The callback's test
  for them cannot be expressed with `Reply.error` as an optional error.
- Reading a property of `null` or `undefined` yields `undefined` in the model, where
  JavaScript throws a TypeError.
- A model's `url` method is Backbone's own, which builds the URL from the base and the id. A
  method an application overrides is represented only by its source text and that default.
- DefaultSettings: a `sep` that is a function is called by `String.prototype.replace` for
  each `/`; that is foreign code, so `sep` is a string or absent.
- KeyOfSegments, TodoKey, CreateTodoExample: stated for separators without `$`. For any other
  separator, `KeyCodec.KeyFormat` states the key through the pattern expansion.
- IdsReadGetsEachKey: stated for a collection whose `url` is a string. For a `url` method,
  `SyncOlder.Read` states the keys, formed from the method's source text.
- Uri: strings are sequences of Unicode scalar values, so the URIError that
  `encodeURIComponent` and `decodeURIComponent` raise on a lone surrogate cannot arise.
- SyncNewer.Sync, Read, VerbRouting, N1qlRead, StringUrlIsNotCallable: these settle the
  newer dispatcher with build/index.js:226 read as intended (`options.docIds`) and with the
  index check's evident data flow. As written, every successful answer that is not a list
  throws a ReferenceError in the callback when `ids` is absent (`ResultNormalizer.ShapeNewerAsWritten`,
  `SyncNewer.DeleteAnswerThrowsAsWritten`), and every N1QL read throws before any operation at
  the check's undeclared `tasks` (`IndexChecker.CheckAsWritten`).
- SyncNewer.N1qlRead: `EnsureIndexes` is one abstract operation. The statements it causes are
  modelled separately, by `IndexChecker`.
- IndexChecker.Check: the bucket name is a string. Line 31 reads `bucket.name` as a property
  and line 54 calls it; the model uses the name in both places.
- The callback passes `result` to `_error` on the ids path (index.js:205,
  build/index.js:202). `_error` takes one argument, so the result is dropped. The model does
  the same (`ErrorTranslator.ReportError`) rather than treating it as a defect.
- `options.ids` is overwritten with the wrapped list. Only its presence is read afterwards,
  so the model does not write it back.

## Findings

| source | as written | input that shows it | evidently intended | confidence | as-written member | corrected member |
|---|---|---|---|---|---|---|
| build/IndexModel.js:49 | `is_primary \|\| true` is never false | `new IndexModel("byType", false, "GSI", ["type"])` | a missing or false flag describes a secondary index | high, not executed | IndexModel.FalsePrimaryIgnored | IndexModel.NewExplicit |
| build/index.js:484-485 | `httpError \|\| true` and `sep \|\| "::"` ignore an explicit `false` | `{bucket: b, sep: false, httpError: false}` | translation off by default and on request; `sep: false` keeps paths unflattened, as the doc comment at lines 69-70 says | high, not executed | Config.FalseOptionsIgnored | Config.ExplicitSettings |
| build/index.js:226 | reads `option.docIds`, an undeclared identifier | any single-document read, e.g. result `{value: {a: 1}}` with no options | test `options.docIds` | high, not executed | ResultNormalizer.SingleDocumentReadThrowsAsWritten | ResultNormalizer.ShapeNewer |
| build/index.js:361 | `query.skip(skip)` reads an undeclared `skip` | a collection view read with `{skip: 20}` | forward `options.skip` | high, not executed | ViewQueries.SkipThrowsAsWritten | ViewQueries.NewerView |
| build/N1qlIndexesChecker.js:30-51 | `tasks` and `query` are never declared, and `createIndexes` is local to the first task | any call | collect the tasks in a local list, send the built listing query, and share the batch between the tasks | high, not executed | IndexChecker.CheckAsWritten | IndexChecker.Check |
| build/N1qlIndexesChecker.js:44 | `_.union` of wanted and existing indexes re-creates existing ones | nothing wanted, one existing index | create only the wanted indexes that are missing | medium, not executed | IndexChecker.UnionRecreatesExisting | IndexChecker.Reconcile |
| build/N1qlIndexesChecker.js:56 | secondary statement lacks the INDEX keyword | latent as written, since line 49 of build/IndexModel.js makes every entry primary; once that is fixed, any secondary index, e.g. `byType` on `type` | `CREATE INDEX name ON ...` | high, not executed | IndexChecker.SecondaryKeywordLatent | IndexChecker.RenderCreateFixed |
| build/N1qlIndexesChecker.js:62 | a failing CREATE statement is thrown inside the store callback | the store refuses the primary statement | pass the error to the callback | high, not executed | IndexChecker.RefusedCreateCrashesAsWritten | IndexChecker.Check |
| build/N1qlIndexesChecker.js:44 | the union batch sends `CREATE PRIMARY INDEX` again when the primary index exists | a bucket whose catalog lists the primary index, nothing else wanted | the check passes without touching the catalog | medium, not executed | IndexChecker.DuplicatePrimaryRefused | IndexChecker.PresentPrimaryReconciled |

=== FILE: Config.dfy ===
/**
 * Adapter construction: the store-handle validation that throws before anything else
 * happens, the `httpError` and `sep` defaults, and the per-design-document decision of the
 * view-definition convergence that the newer generation runs once at set-up.
 */
module Config {
  import opened Results
  import opened JsValues
  import opened ErrorTranslator

  /** The immutable settings every sync call of one adapter shares. `sep == None` means
      keys are not flattened. */
  datatype Settings = Settings(sep: Option<string>, httpError: bool)

  /** Where the store handle comes from. */
  datatype StoreSource =
    | GivenBucket(bucket: Json)
    | OpenBucket(cluster: Json, bucketName: Json, password: Json)

  datatype Adapter = Adapter(source: StoreSource, settings: Settings)

  const MissingStore := "Bucket or Connection object is required to generate sync method"
  const MissingConnectionParts := "Connection bucket and cluster are required"

  function Thrown(message: string): ErrorValue {
    ErrorValue(JsError("Error"), Undefined, message)
  }

  /** The store-handle checks shared by both generations: neither `bucket` nor `connection`
      throws, a given `bucket` wins, and a `connection` needs both `cluster` and `bucket`. */
  function ValidateStore(options: Json): (r: Result<StoreSource, ErrorValue>)
    ensures r.Err? <==>
              (Nullish(Prop(options, "bucket")) && Nullish(Prop(options, "connection"))) ||
              (Nullish(Prop(options, "bucket")) &&
               (Nullish(Prop(Prop(options, "connection"), "cluster")) ||
                Nullish(Prop(Prop(options, "connection"), "bucket"))))
    ensures r.Err? && Nullish(Prop(options, "connection")) ==> r.error == Thrown(MissingStore)
    ensures r.Err? && Present(Prop(options, "connection")) ==> r.error == Thrown(MissingConnectionParts)
    ensures Present(Prop(options, "bucket")) ==> r == Ok(GivenBucket(Prop(options, "bucket")))
  {
    var bucket := Prop(options, "bucket");
    var connection := Prop(options, "connection");
    if Nullish(bucket) && Nullish(connection) then Err(Thrown(MissingStore))
    else if Present(bucket) then Ok(GivenBucket(bucket))
    else if Nullish(Prop(connection, "cluster")) || Nullish(Prop(connection, "bucket")) then
      Err(Thrown(MissingConnectionParts))
    else Ok(OpenBucket(Prop(connection, "cluster"), Prop(connection, "bucket"), Prop(connection, "password")))
  }

  /** `httpError = options.httpError || true; sep = options.sep || "::"`, as written. */
  function DefaultSettings(options: Json): (s: Settings)
    ensures s.httpError
    ensures s.sep.Some?
    ensures !Truthy(Prop(options, "sep")) ==> s.sep == Some("::")
    ensures Prop(options, "sep").Str? && Truthy(Prop(options, "sep")) ==> s.sep == Some(Prop(options, "sep").s)
  {
    Settings(Some(ToJsString(Or(Prop(options, "sep"), Str("::")))),
             Truthy(Or(Prop(options, "httpError"), Bool(true))))
  }

  /** The defaults the constructor's doc comment gives: translation only when `httpError`
      is truthy (default false), and `sep` defaulting to `"::"`, with `sep: false` turning
      flattening off. */
  function ExplicitSettings(options: Json): (s: Settings)
    ensures s.httpError <==> Truthy(Prop(options, "httpError"))
    ensures Prop(options, "sep") == Bool(false) <==> s.sep == None
    ensures Nullish(Prop(options, "sep")) ==> s.sep == Some("::")
    ensures Prop(options, "sep").Str? ==> s.sep == Some(Prop(options, "sep").s)
  {
    var sep := Prop(options, "sep");
    Settings(if Nullish(sep) then Some("::") else if sep == Bool(false) then None else Some(ToJsString(sep)),
             Truthy(Prop(options, "httpError")))
  }

  /** The two readings agree whenever translation is asked for and the separator is
      truthy or left out. */
  lemma SettingsAgreeOnTruthyOptions(options: Json)
    requires Truthy(Prop(options, "sep")) || Nullish(Prop(options, "sep"))
    requires Truthy(Prop(options, "httpError"))
    ensures DefaultSettings(options) == ExplicitSettings(options)
  {
  }

  /** `sep: false` and `httpError: false` are both ignored as written. */
  lemma FalseOptionsIgnored()
    ensures var options := Obj([("bucket", Str("b")), ("sep", Bool(false)), ("httpError", Bool(false))]);
            DefaultSettings(options) == Settings(Some("::"), true) &&
            ExplicitSettings(options) == Settings(None, false)
  {
    var options := Obj([("bucket", Str("b")), ("sep", Bool(false)), ("httpError", Bool(false))]);
    assert Prop(options, "sep") == Bool(false);
    assert Prop(options, "httpError") == Bool(false);
  }

  /** The older generation's constructor: reading `options.bucket` on a missing options
      object throws a TypeError before any check. */
  function ConstructOlder(options: Json): (r: Result<Adapter, ErrorValue>)
    ensures Nullish(options) ==> r.Err? && r.error.kind == JsError("TypeError")
    ensures Present(options) ==> (r.Ok? <==> ValidateStore(options).Ok?)
    ensures r.Ok? ==> r.value.settings.httpError
  {
    if Nullish(options) then
      Err(ErrorValue(JsError("TypeError"), Undefined, "Cannot read properties of undefined (reading 'bucket')"))
    else
      match ValidateStore(options)
      case Err(e) => Err(e)
      case Ok(source) => Ok(Adapter(source, DefaultSettings(options)))
  }

  /** The newer generation's constructor: a missing options object reads as `{}`, which then
      fails the store-handle check. */
  function ConstructNewer(options: Json): (r: Result<Adapter, ErrorValue>)
    ensures Nullish(options) ==> r == Err(Thrown(MissingStore))
    ensures Present(options) ==> (r.Ok? <==> ValidateStore(options).Ok?)
    ensures Present(options) && r.Err? ==> r.error == ValidateStore(options).error
    ensures r.Ok? ==> r.value.settings == DefaultSettings(options) && r.value.settings.httpError
  {
    var opts := if Nullish(options) then Obj([]) else options;
    match ValidateStore(opts)
    case Err(e) => Err(e)
    case Ok(source) => Ok(Adapter(source, DefaultSettings(opts)))
  }

  /** Given an options object, both generations build the same adapter or fail alike; they
      differ only on a missing one, which the older reads and the newer replaces by `{}`. */
  lemma ConstructorsAgree(options: Json)
    ensures Present(options) ==> ConstructNewer(options) == ConstructOlder(options)
    ensures Nullish(options) ==> ConstructNewer(options).Err? && ConstructOlder(options).Err? &&
                                 ConstructNewer(options).error != ConstructOlder(options).error
  {
  }

  /** What the store said when asked for one design document. */
  datatype DesignDocReply =
    | Fetched(doc: Json)
    | FetchFailed(error: ErrorValue)

  /** The convergence step chosen for one declared design document. */
  datatype DesignDocStep = InsertDoc | UpsertDoc | KeepDoc | AbortSetup(error: ErrorValue)

  /** A missing design document is inserted, a differing one is upserted, an equal one is
      left alone, and any other fetch error aborts the set-up. */
  function DesignDocAction(reply: DesignDocReply, wanted: Json): (step: DesignDocStep)
    ensures step == KeepDoc <==> reply.Fetched? && DeepEqual(reply.doc, wanted)
    ensures step == UpsertDoc <==> reply.Fetched? && !DeepEqual(reply.doc, wanted)
    ensures step == InsertDoc <==>
              reply.FetchFailed? && reply.error.message in {"missing", "not_found", "deleted"}
    ensures step.AbortSetup? ==> reply == FetchFailed(step.error)
  {
    match reply
    case FetchFailed(e) =>
      if e.message == "missing" || e.message == "not_found" || e.message == "deleted" then InsertDoc
      else AbortSetup(e)
    case Fetched(doc) => if !DeepEqual(doc, wanted) then UpsertDoc else KeepDoc
  }

  /** Once an insert or upsert has stored the declared definition, the next pass fetches
      it and keeps it. */
  lemma DesignDocConverges(wanted: Json)
    requires WellFormed(wanted)
    ensures DesignDocAction(Fetched(wanted), wanted) == KeepDoc
  {
    DeepEqualReflexive(wanted);
  }
}

=== FILE: ErrorTranslator.dfy ===
/**
 * `_couchbaseErrorFormat`, identical in both generations: a store error is classified by its
 * numeric code into an HTTP-style status (13 "key not found" gives 404, 12 "key exists"
 * gives 409, anything else 500), unless HTTP translation is switched off.
 */
module ErrorTranslator {
  import opened JsValues

  /** How a thrown or reported error converts to a string. */
  datatype ErrorKind =
    | JsError(name: string)   // an Error instance (or subclass such as the driver's CouchbaseError)
    | PlainObject             // an object literal such as the adapter's `{code, message}`

  /** An error value with the `code` property the classifier reads. */
  datatype ErrorValue = ErrorValue(kind: ErrorKind, code: Json, message: string)

  /** `error.toString()`. */
  function ErrorText(e: ErrorValue): string {
    match e.kind
    case JsError(name) => if e.message == "" then name else name + ": " + e.message
    case PlainObject => "[object Object]"
  }

  /** What the `message` of a translated error holds. */
  datatype Message =
    | Text(text: string)          // `error.toString()`
    | Payload(result: Json)       // the store's accompanying result, when truthy
    | Raw(error: ErrorValue)      // the error object itself

  /** The error handed to the caller's `error` callback and to the rejected promise. */
  datatype Reported =
    | Untranslated(error: ErrorValue)
    | Http(status: int, message: Message)

  /** `_couchbaseErrorFormat(error, result)`. */
  function FormatError(httpError: bool, error: ErrorValue, result: Json): (r: Reported)
    ensures !httpError <==> r == Untranslated(error)
    ensures httpError ==> r.Http? && r.status in {404, 409, 500}
    ensures r.Http? ==> (r.status == 404 <==> error.code == Num(13))
    ensures r.Http? ==> (r.status == 409 <==> error.code == Num(12))
    ensures r.Http? && r.status != 500 ==> r.message == Text(ErrorText(error))
    ensures r.Http? && r.status == 500 ==>
              r.message == if Truthy(result) then Payload(result) else Raw(error)
  {
    if !httpError then Untranslated(error)
    else if error.code == Num(13) then Http(404, Text(ErrorText(error)))
    else if error.code == Num(12) then Http(409, Text(ErrorText(error)))
    else Http(500, if Truthy(result) then Payload(result) else Raw(error))
  }

  /** `_error(err)`: the adapter's one-argument reporter. A caller that also passes the
      store's result (the multi-get path does) has it dropped, so an unclassified error
      always carries the error object itself. */
  function ReportError(httpError: bool, error: ErrorValue): (r: Reported)
    ensures httpError ==> r.Http?
    ensures r.Http? && r.status == 500 ==> r.message == Raw(error)
  {
    FormatError(httpError, error, Undefined)
  }
}

=== FILE: IndexChecker.dfy ===
/**
 * `N1qlIndexesChecker`: before a N1QL read, make sure the indexes a model declares exist on
 * the bucket. The caller's list always gets the primary index prepended; the existing
 * indexes are listed; a CREATE statement is rendered per index of the creation batch, and
 * all statements are sent at once (`async.map`); the checker's callback gets the first
 * failure to come back, or nothing once every statement has succeeded.
 *
 * Three readings are modelled: the file exactly as written (it throws on an undeclared
 * variable before doing anything), its evident data flow (`Check`, which keeps the union
 * and the `is_primary || true` default), and the reconciliation its description promises
 * (`Reconcile`: only missing indexes are created).
 */
module IndexChecker {
  import opened Results
  import opened JsValues
  import opened ErrorTranslator
  import opened IndexModel

  /** `{name: "#primary", is_primary: true, using: "GSI", index_key: []}`. */
  const PrimaryEntry: Json :=
    Obj([("name", Str("#primary")), ("is_primary", Bool(true)), ("using", Str("GSI")), ("index_key", Arr([]))])

  /** `wantedIndexes.unshift(primary)`: the caller's own list grows by the primary entry,
      at position 0, on every call. */
  function WithPrimary(wanted: seq<Json>): (w: seq<Json>)
    ensures |w| == |wanted| + 1
    ensures w[0] == PrimaryEntry && w[1..] == wanted
  {
    [PrimaryEntry] + wanted
  }

  /** The answer to the index-listing query. */
  datatype Listing = ListFailed(error: ErrorValue) | Listed(rows: seq<Json>)

  /** How a checker run ends: its callback gets no error, gets one, the run throws, or it
      still waits for answers from the store. */
  datatype CheckOutcome = Passed | Failed(error: ErrorValue) | Crashed(error: ErrorValue) | Waiting

  /** The caller's list after the call, the CREATE statements sent, and the outcome. */
  datatype CheckRun = CheckRun(wanted: seq<Json>, statements: seq<string>, outcome: CheckOutcome)

  function Models(entries: seq<Json>): (ms: seq<IndexModel>)
    ensures |ms| == |entries|
    ensures forall i :: 0 <= i < |entries| ==> ms[i] == FromEntry(entries[i])
  {
    if |entries| == 0 then [] else [FromEntry(entries[0])] + Models(entries[1..])
  }

  /** `_.union(wanted, current)` over freshly built models: `_.union` drops only
      identical objects, and every model is a new object, so the batch is the wanted
      models followed by the existing ones. */
  function UnionBatch(wanted: seq<Json>, current: seq<Json>): (batch: seq<IndexModel>)
    ensures |batch| == |wanted| + |current|
    ensures forall i :: 0 <= i < |wanted| ==> batch[i] == FromEntry(wanted[i])
    ensures forall i :: 0 <= i < |current| ==> batch[|wanted| + i] == FromEntry(current[i])
  {
    Models(wanted) + Models(current)
  }

  const JoinNotAFunction := ErrorValue(JsError("TypeError"), Undefined, "index.index_key.join is not a function")

  /** The statement rendered for one index, as written: a primary index gets
      `CREATE PRIMARY INDEX ON ...`, any other gets `CREATE `name` ON ...` (without the
      INDEX keyword). Joining keys that are not a list throws. */
  function RenderCreate(bucket: string, m: IndexModel): (r: Result<string, ErrorValue>)
    ensures Truthy(m.isPrimary) ==>
              r == Ok("CREATE PRIMARY INDEX ON `" + bucket + "` USING " + ToJsString(m.using) + ";")
    ensures !Truthy(m.isPrimary) && m.indexKey.Arr? ==>
              r == Ok("CREATE `" + ToJsString(m.name) + "` ON `" + bucket + "` (" +
                      JoinValues(m.indexKey.items, ", ") + ") USING " + ToJsString(m.using) + ";")
    ensures !Truthy(m.isPrimary) && !m.indexKey.Arr? ==> r == Err(JoinNotAFunction)
  {
    if Truthy(m.isPrimary) then
      Ok("CREATE PRIMARY INDEX ON `" + bucket + "` USING " + ToJsString(m.using) + ";")
    else if m.indexKey.Arr? then
      Ok("CREATE `" + ToJsString(m.name) + "` ON `" + bucket + "` (" +
         JoinValues(m.indexKey.items, ", ") + ") USING " + ToJsString(m.using) + ";")
    else Err(JoinNotAFunction)
  }

  /** The secondary-index statement with the INDEX keyword N1QL requires. */
  function RenderCreateFixed(bucket: string, m: IndexModel): (r: Result<string, ErrorValue>)
    ensures Truthy(m.isPrimary) ==> r == RenderCreate(bucket, m)
    ensures !Truthy(m.isPrimary) && m.indexKey.Arr? ==>
              r == Ok("CREATE INDEX `" + ToJsString(m.name) + "` ON `" + bucket + "` (" +
                      JoinValues(m.indexKey.items, ", ") + ") USING " + ToJsString(m.using) + ";")
    ensures !Truthy(m.isPrimary) && !m.indexKey.Arr? ==> r == Err(JoinNotAFunction)
  {
    if Truthy(m.isPrimary) then RenderCreate(bucket, m)
    else if m.indexKey.Arr? then
      Ok("CREATE INDEX `" + ToJsString(m.name) + "` ON `" + bucket + "` (" +
         JoinValues(m.indexKey.items, ", ") + ") USING " + ToJsString(m.using) + ";")
    else Err(JoinNotAFunction)
  }

  /** One statement per batch entry, in batch order; the first entry that cannot be
      rendered throws and nothing is sent. */
  function RenderAll(bucket: string, batch: seq<IndexModel>, fixed: bool): (r: Result<seq<string>, ErrorValue>)
    ensures r.Ok? ==> |r.value| == |batch|
    ensures r.Ok? ==> forall i :: 0 <= i < |batch| ==>
              Ok(r.value[i]) == if fixed then RenderCreateFixed(bucket, batch[i]) else RenderCreate(bucket, batch[i])
    ensures r.Err? ==>
              exists i :: 0 <= i < |batch| &&
                (if fixed then RenderCreateFixed(bucket, batch[i]) else RenderCreate(bucket, batch[i])) == Err(r.error)
  {
    if |batch| == 0 then Ok([])
    else
      var first := if fixed then RenderCreateFixed(bucket, batch[0]) else RenderCreate(bucket, batch[0]);
      match first
      case Err(e) => Err(e)
      case Ok(s) =>
        match RenderAll(bucket, batch[1..], fixed)
        case Err(e) => Err(e)
        case Ok(ss) => Ok([s] + ss)
  }

  /** How the store answers one CREATE statement. */
  datatype CreateAnswer = Created | AlreadyExists(error: ErrorValue) | CreateFailed(error: ErrorValue)

  /** One answer as it comes back from the store: the position of the statement it answers,
      and the answer. All statements are sent at once, so the answers come back in whatever
      order the store gives them, and two identical statements may be answered
      differently. */
  datatype Arrival = Arrival(position: nat, answer: CreateAnswer)

  /** Whether an answer to one of the first `count` statements is an error that ends the
      run: any error, or only a failure other than "already exists" when those are
      tolerated. */
  predicate Refuses(a: Arrival, count: nat, tolerateExisting: bool) {
    a.position < count && (a.answer.CreateFailed? || (a.answer.AlreadyExists? && !tolerateExisting))
  }

  /** Statement `i` has been answered. */
  predicate Answered(arrivals: seq<Arrival>, i: nat) {
    exists k :: 0 <= k < |arrivals| && arrivals[k].position == i
  }

  predicate AllAnswered(arrivals: seq<Arrival>, count: nat) {
    forall i :: 0 <= i < count ==> Answered(arrivals, i)
  }

  /** The error of the first refusal to arrive. */
  function FirstRefusal(arrivals: seq<Arrival>, count: nat, tolerateExisting: bool): (r: Option<ErrorValue>)
    ensures r.None? <==> forall k :: 0 <= k < |arrivals| ==> !Refuses(arrivals[k], count, tolerateExisting)
    ensures r.Some? ==>
              exists k :: 0 <= k < |arrivals| && Refuses(arrivals[k], count, tolerateExisting) &&
                arrivals[k].answer.error == r.value &&
                forall j :: 0 <= j < k ==> !Refuses(arrivals[j], count, tolerateExisting)
  {
    if |arrivals| == 0 then None
    else if Refuses(arrivals[0], count, tolerateExisting) then Some(arrivals[0].answer.error)
    else
      var rest := arrivals[1..];
      var r := FirstRefusal(rest, count, tolerateExisting);
      assert forall k :: 1 <= k < |arrivals| ==> arrivals[k] == rest[k - 1];
      if r.Some? then
        var k :| 0 <= k < |rest| && Refuses(rest[k], count, tolerateExisting) && rest[k].answer.error == r.value &&
                 forall j :: 0 <= j < k ==> !Refuses(rest[j], count, tolerateExisting);
        assert arrivals[k + 1] == rest[k];
        r
      else r
  }

  /** How `async.map` over `count` statements ends: the first refusal to arrive is its
      error; without one it completes once every statement is answered, and waits until
      then. */
  function Settle(arrivals: seq<Arrival>, count: nat, tolerateExisting: bool): (o: CheckOutcome)
    ensures o == Passed <==>
              AllAnswered(arrivals, count) && forall k :: 0 <= k < |arrivals| ==> !Refuses(arrivals[k], count, tolerateExisting)
    ensures o == Waiting <==>
              !AllAnswered(arrivals, count) && forall k :: 0 <= k < |arrivals| ==> !Refuses(arrivals[k], count, tolerateExisting)
    ensures o.Failed? ==>
              exists k :: 0 <= k < |arrivals| && Refuses(arrivals[k], count, tolerateExisting) &&
                arrivals[k].answer.error == o.error &&
                forall j :: 0 <= j < k ==> !Refuses(arrivals[j], count, tolerateExisting)
    ensures !o.Crashed?
  {
    match FirstRefusal(arrivals, count, tolerateExisting)
    case Some(e) => Failed(e)
    case None => if AllAnswered(arrivals, count) then Passed else Waiting
  }

  /** The checker's evident data flow, with the union batch and the constructor as
      written. */
  function Check(bucket: string, wanted: seq<Json>, listing: Listing, arrivals: seq<Arrival>): (run: CheckRun)
    ensures run.wanted == WithPrimary(wanted)
    ensures listing.ListFailed? ==> run.statements == [] && run.outcome == Failed(listing.error)
    ensures listing.Listed? ==> |run.statements| == |wanted| + 1 + |listing.rows|
    ensures listing.Listed? ==> run.outcome == Settle(arrivals, |run.statements|, false)
    ensures listing.Listed? ==>
              (run.outcome == Passed <==>
                 AllAnswered(arrivals, |run.statements|) &&
                 forall k :: 0 <= k < |arrivals| && arrivals[k].position < |run.statements| ==> arrivals[k].answer.Created?)
    ensures !run.outcome.Crashed?
  {
    var w := WithPrimary(wanted);
    match listing
    case ListFailed(e) => CheckRun(w, [], Failed(e))
    case Listed(rows) =>
      var batch := UnionBatch(w, rows);
      match RenderAll(bucket, batch, false)
      case Err(e) =>
        assert false;
        CheckRun(w, [], Crashed(e))
      case Ok(statements) => CheckRun(w, statements, Settle(arrivals, |statements|, false))
  }

  /** Every wanted index, and every existing one again, is sent as a CREATE statement, and
      every statement is a PRIMARY one, since `is_primary || true` never yields false. */
  lemma {:induction false} CheckCreatesEverythingAsPrimary(bucket: string, wanted: seq<Json>, rows: seq<Json>,
                                                           arrivals: seq<Arrival>)
    ensures var run := Check(bucket, wanted, Listed(rows), arrivals);
            var w := WithPrimary(wanted);
            forall i :: 0 <= i < |run.statements| ==>
              var m := if i < |w| then FromEntry(w[i]) else FromEntry(rows[i - |w|]);
              run.statements[i] == "CREATE PRIMARY INDEX ON `" + bucket + "` USING " + ToJsString(m.using) + ";"
  {
    var w := WithPrimary(wanted);
    var batch := UnionBatch(w, rows);
    var r := RenderAll(bucket, batch, false);
    assert r.Ok?;
    forall i | 0 <= i < |r.value|
      ensures var m := if i < |w| then FromEntry(w[i]) else FromEntry(rows[i - |w|]);
              r.value[i] == "CREATE PRIMARY INDEX ON `" + bucket + "` USING " + ToJsString(m.using) + ";"
    {
      assert Ok(r.value[i]) == RenderCreate(bucket, batch[i]);
    }
  }

  const TasksNotDefined := ErrorValue(JsError("ReferenceError"), Undefined, "tasks is not defined")

  /** The file as written: the caller's list is mutated, then `tasks.push` reads an
      undeclared variable and the call throws before any query. */
  function CheckAsWritten(bucket: string, wanted: seq<Json>): (run: CheckRun)
    ensures run.wanted == WithPrimary(wanted)
    ensures run.statements == [] && run.outcome == Crashed(TasksNotDefined)
  {
    CheckRun(WithPrimary(wanted), [], Crashed(TasksNotDefined))
  }

  /** As written a failing CREATE statement is thrown inside the store callback instead of
      being passed on: the first refusal to arrive crashes the run, where the evident data
      flow hands that same error to the checker's callback. Without a refusal both end
      alike. */
  function CreationOutcomeAsWritten(count: nat, arrivals: seq<Arrival>): (r: CheckOutcome)
    ensures r.Crashed? <==> exists k :: 0 <= k < |arrivals| && Refuses(arrivals[k], count, false)
    ensures r.Crashed? ==> Settle(arrivals, count, false) == Failed(r.error)
    ensures !r.Crashed? ==> r == Settle(arrivals, count, false)
  {
    match FirstRefusal(arrivals, count, false)
    case Some(e) => Crashed(e)
    case None => if AllAnswered(arrivals, count) then Passed else Waiting
  }

  // The reconciliation the checker's description promises: create only what is missing.

  function ModelsExplicit(entries: seq<Json>): (ms: seq<IndexModel>)
    ensures |ms| == |entries|
    ensures forall i :: 0 <= i < |entries| ==> ms[i] == FromEntryExplicit(entries[i])
  {
    if |entries| == 0 then [] else [FromEntryExplicit(entries[0])] + ModelsExplicit(entries[1..])
  }

  /** The wanted indexes absent from the catalog, each once, in wanted order. */
  function Missing(wanted: seq<IndexModel>, catalog: seq<IndexModel>): (m: seq<IndexModel>)
    ensures forall i :: 0 <= i < |m| ==> m[i] !in catalog && m[i] in wanted
    ensures forall i, j :: 0 <= i < j < |m| ==> m[i] != m[j]
    ensures forall w :: w in wanted ==> w in catalog || w in m
    decreases |wanted|
  {
    if |wanted| == 0 then []
    else if wanted[0] in catalog then Missing(wanted[1..], catalog)
    else
      var rest := Missing(wanted[1..], catalog + [wanted[0]]);
      assert forall w :: w in wanted ==> w == wanted[0] || w in wanted[1..];
      [wanted[0]] + rest
  }

  /** Once the missing indexes exist, nothing is missing any more. */
  lemma MissingIsIdempotent(wanted: seq<IndexModel>, catalog: seq<IndexModel>)
    ensures Missing(wanted, catalog + Missing(wanted, catalog)) == []
  {
    NothingMissing(wanted, catalog + Missing(wanted, catalog));
  }

  lemma {:induction false} NothingMissing(wanted: seq<IndexModel>, catalog: seq<IndexModel>)
    requires forall w :: w in wanted ==> w in catalog
    ensures Missing(wanted, catalog) == []
    decreases |wanted|
  {
    if |wanted| > 0 {
      assert wanted[0] in catalog;
      NothingMissing(wanted[1..], catalog);
    }
  }

  /** The statements sent, the outcome, and the catalog the run leaves behind when it
      passes. */
  datatype ReconcileRun = ReconcileRun(statements: seq<string>, outcome: CheckOutcome, catalog: seq<IndexModel>)

  /** Reconciliation with the intended semantics: primary prepended, the catalog read, only
      the missing indexes created, "already exists" tolerated, any other failure surfaced. */
  function Reconcile(bucket: string, wanted: seq<Json>, listing: Listing, arrivals: seq<Arrival>): (run: ReconcileRun)
    ensures listing.ListFailed? ==> run.statements == [] && run.outcome == Failed(listing.error)
    ensures listing.Listed? ==> |run.statements| <= |wanted| + 1
    ensures run.outcome == Passed ==>
              listing.Listed? &&
              forall w :: w in ModelsExplicit(WithPrimary(wanted)) ==> w in run.catalog
    ensures listing.Listed? && run.outcome == Passed ==>
              AllAnswered(arrivals, |run.statements|) &&
              forall k :: 0 <= k < |arrivals| && arrivals[k].position < |run.statements| ==>
                !arrivals[k].answer.CreateFailed?
    ensures listing.Listed? ==>
              var rendered := RenderAll(bucket, Missing(ModelsExplicit(WithPrimary(wanted)), ModelsExplicit(listing.rows)), true);
              (rendered.Ok? ==> run.statements == rendered.value && run.outcome == Settle(arrivals, |rendered.value|, true)) &&
              (rendered.Err? ==> run.statements == [] && run.outcome == Failed(rendered.error))
    ensures !run.outcome.Crashed?
  {
    match listing
    case ListFailed(e) => ReconcileRun([], Failed(e), [])
    case Listed(rows) =>
      var catalog := ModelsExplicit(rows);
      var missing := Missing(ModelsExplicit(WithPrimary(wanted)), catalog);
      assert |missing| <= |wanted| + 1 by {
        MissingIsShort(ModelsExplicit(WithPrimary(wanted)), catalog);
      }
      match RenderAll(bucket, missing, true)
      case Err(e) => ReconcileRun([], Failed(e), catalog)
      case Ok(statements) =>
        var outcome := Settle(arrivals, |statements|, true);
        ReconcileRun(statements, outcome, if outcome == Passed then catalog + missing else catalog)
  }

  /** Every statement the reconciliation sends creates a wanted index the catalog lacks,
      and each such index is created at most once. */
  lemma ReconcileSendsOnlyMissing(bucket: string, wanted: seq<Json>, rows: seq<Json>, arrivals: seq<Arrival>)
    ensures var run := Reconcile(bucket, wanted, Listed(rows), arrivals);
            var missing := Missing(ModelsExplicit(WithPrimary(wanted)), ModelsExplicit(rows));
            forall i :: 0 <= i < |run.statements| ==>
              i < |missing| && missing[i] in ModelsExplicit(WithPrimary(wanted)) &&
              missing[i] !in ModelsExplicit(rows) &&
              Ok(run.statements[i]) == RenderCreateFixed(bucket, missing[i])
  {
    var missing := Missing(ModelsExplicit(WithPrimary(wanted)), ModelsExplicit(rows));
    var rendered := RenderAll(bucket, missing, true);
    if rendered.Ok? {
      assert forall i :: 0 <= i < |missing| ==> Ok(rendered.value[i]) == RenderCreateFixed(bucket, missing[i]);
    }
  }

  lemma {:induction false} MissingIsShort(wanted: seq<IndexModel>, catalog: seq<IndexModel>)
    ensures |Missing(wanted, catalog)| <= |wanted|
    decreases |wanted|
  {
    if |wanted| > 0 {
      if wanted[0] in catalog {
        MissingIsShort(wanted[1..], catalog);
      } else {
        MissingIsShort(wanted[1..], catalog + [wanted[0]]);
      }
    }
  }

  /** Running the reconciliation again against the catalog a passing run left behind sends
      no statement at all, and passes whatever the store would have answered. */
  lemma ReconcileTwiceSendsNothing(bucket: string, wanted: seq<Json>, rows: seq<Json>, rows2: seq<Json>,
                                   arrivals: seq<Arrival>, arrivals2: seq<Arrival>)
    ensures var first := Reconcile(bucket, wanted, Listed(rows), arrivals);
            first.outcome == Passed && ModelsExplicit(rows2) == first.catalog ==>
              Reconcile(bucket, wanted, Listed(rows2), arrivals2).statements == [] &&
              Reconcile(bucket, wanted, Listed(rows2), arrivals2).outcome == Passed
  {
    var w := ModelsExplicit(WithPrimary(wanted));
    var first := Reconcile(bucket, wanted, Listed(rows), arrivals);
    if first.outcome == Passed && ModelsExplicit(rows2) == first.catalog {
      MissingIsIdempotent(w, ModelsExplicit(rows));
      assert Missing(w, ModelsExplicit(rows2)) == [];
      assert RenderAll(bucket, [], true) == Ok([]);
      NothingToSettle(arrivals2, true);
    }
  }

  /** With no statement sent, `async.map` completes at once. */
  lemma NothingToSettle(arrivals: seq<Arrival>, tolerateExisting: bool)
    ensures Settle(arrivals, 0, tolerateExisting) == Passed
  {
  }

  /** The union batch re-creates indexes that already exist: one existing secondary index
      yields a second CREATE statement even though nothing is wanted. */
  lemma UnionRecreatesExisting(bucket: string, arrivals: seq<Arrival>)
    ensures var existing := Obj([("name", Str("byType")), ("using", Str("gsi")), ("index_key", Arr([Str("type")]))]);
            |Check(bucket, [], Listed([existing]), arrivals).statements| == 2
  {
  }

  /** With the primary index already present, the union batch sends the same
      `CREATE PRIMARY INDEX` statement twice; the store holds the index already and answers
      both with "already exists", in whichever order, which fails the check with the first
      answer to arrive, and crashes it as written. */
  lemma DuplicatePrimaryRefused(bucket: string, e: ErrorValue, e': ErrorValue)
    ensures var arrivals := [Arrival(1, AlreadyExists(e)), Arrival(0, AlreadyExists(e'))];
            var run := Check(bucket, [], Listed([PrimaryEntry]), arrivals);
            |run.statements| == 2 && run.statements[0] == run.statements[1] &&
            run.outcome == Failed(e) &&
            CreationOutcomeAsWritten(|run.statements|, arrivals) == Crashed(e)
  {
    var arrivals := [Arrival(1, AlreadyExists(e)), Arrival(0, AlreadyExists(e'))];
    CheckCreatesEverythingAsPrimary(bucket, [], [PrimaryEntry], arrivals);
    var run := Check(bucket, [], Listed([PrimaryEntry]), arrivals);
    assert WithPrimary([])[0] == PrimaryEntry;
    assert run.statements[0] == run.statements[1];
    assert Refuses(arrivals[0], 2, false);
  }

  /** The reconciliation finds the primary index in the catalog, sends nothing and
      passes. */
  lemma PresentPrimaryReconciled(bucket: string, arrivals: seq<Arrival>)
    ensures var run := Reconcile(bucket, [], Listed([PrimaryEntry]), arrivals);
            run.statements == [] && run.outcome == Passed
  {
    var w := ModelsExplicit(WithPrimary([]));
    assert WithPrimary([]) == [PrimaryEntry];
    NothingMissing(w, ModelsExplicit([PrimaryEntry]));
  }

  /** An existing secondary index as the catalog lists it. */
  const ByTypeEntry: Json := Obj([("name", Str("byType")), ("using", Str("gsi")), ("index_key", Arr([Str("type")]))])

  /** The missing INDEX keyword is latent as written: the constructor makes `byType` a
      primary index, so no secondary statement is ever rendered. Once the flag is read as
      intended, `byType` renders without the keyword, and the fixed rendering adds it. */
  lemma SecondaryKeywordLatent(bucket: string)
    ensures Truthy(FromEntry(ByTypeEntry).isPrimary)
    ensures var m := FromEntryExplicit(ByTypeEntry);
            !Truthy(m.isPrimary) &&
            RenderCreate(bucket, m) == Ok("CREATE `byType` ON `" + bucket + "` (type) USING gsi;") &&
            RenderCreateFixed(bucket, m) == Ok("CREATE INDEX `byType` ON `" + bucket + "` (type) USING gsi;")
  {
    var m := FromEntryExplicit(ByTypeEntry);
    assert m.name == Str("byType") && m.using == Str("gsi") && m.indexKey == Arr([Str("type")]);
    assert ToJsString(m.name) == "byType" && ToJsString(m.using) == "gsi";
    assert JoinValues([Str("type")], ", ") == "type";
    assert RenderCreate(bucket, m) == Ok("CREATE `" + "byType" + "` ON `" + bucket + "` (" + "type" + ") USING " + "gsi" + ";");
    assert "CREATE `" + "byType" + "` ON `" == "CREATE `byType` ON `";
    SuffixRegrouped("CREATE `byType` ON `" + bucket);
    assert RenderCreateFixed(bucket, m) == Ok("CREATE INDEX `" + "byType" + "` ON `" + bucket + "` (" + "type" + ") USING " + "gsi" + ";");
    assert "CREATE INDEX `" + "byType" + "` ON `" == "CREATE INDEX `byType` ON `";
    SuffixRegrouped("CREATE INDEX `byType` ON `" + bucket);
  }

  /** The tail of the `byType` statement, appended piece by piece, is appended at once. */
  lemma SuffixRegrouped(x: string)
    ensures x + "` (" + "type" + ") USING " + "gsi" + ";" == x + "` (type) USING gsi;"
  {
    ConcatAssoc(x, "` (", "type");
    ConcatAssoc(x, "` (" + "type", ") USING ");
    ConcatAssoc(x, "` (" + "type" + ") USING ", "gsi");
    ConcatAssoc(x, "` (" + "type" + ") USING " + "gsi", ";");
  }

  /** Every secondary statement opens with `CREATE` followed directly by the quoted index
      name, so the INDEX keyword is missing as written; the fixed rendering opens with
      `CREATE INDEX`. The index `byType` on `type` renders as
      `CREATE `byType` ON `b` (type) USING GSI;`. */
  lemma SecondaryStatementLacksIndexKeyword(bucket: string, m: IndexModel)
    requires !Truthy(m.isPrimary) && m.indexKey.Arr?
    ensures RenderCreate(bucket, m).Ok? && |RenderCreate(bucket, m).value| >= 8
    ensures RenderCreate(bucket, m).value[..8] == "CREATE `"
    ensures RenderCreateFixed(bucket, m).Ok? && |RenderCreateFixed(bucket, m).value| >= 14
    ensures RenderCreateFixed(bucket, m).value[..14] == "CREATE INDEX `"
  {
    var name, keys, using := ToJsString(m.name), JoinValues(m.indexKey.items, ", "), ToJsString(m.using);
    StatementPrefix("CREATE `", name, bucket, keys, using);
    StatementPrefix("CREATE INDEX `", name, bucket, keys, using);
  }

  /** The opening of a secondary statement survives everything appended after it. */
  lemma StatementPrefix(opening: string, name: string, bucket: string, keys: string, using: string)
    ensures var s := opening + name + "` ON `" + bucket + "` (" + keys + ") USING " + using + ";";
            |s| >= |opening| && s[..|opening|] == opening
  {
    var s1 := opening + name;
    var s2 := s1 + "` ON `";
    var s3 := s2 + bucket;
    var s4 := s3 + "` (";
    var s5 := s4 + keys;
    var s6 := s5 + ") USING ";
    var s7 := s6 + using;
    var s8 := s7 + ";";
    PrefixKept(opening, name, |opening|);
    PrefixKept(s1, "` ON `", |opening|);
    PrefixKept(s2, bucket, |opening|);
    PrefixKept(s3, "` (", |opening|);
    PrefixKept(s4, keys, |opening|);
    PrefixKept(s5, ") USING ", |opening|);
    PrefixKept(s6, using, |opening|);
    PrefixKept(s7, ";", |opening|);
  }

  lemma PrefixKept(a: string, b: string, n: nat)
    requires n <= |a|
    ensures (a + b)[..n] == a[..n]
  {
  }

  /** A refused CREATE statement crashes the run as written, while the evident data flow
      hands the store's error to the checker's callback. */
  lemma RefusedCreateCrashesAsWritten(bucket: string, e: ErrorValue, arrivals: seq<Arrival>)
    ensures var run := Check(bucket, [], Listed([]), [Arrival(0, CreateFailed(e))] + arrivals);
            run.statements == ["CREATE PRIMARY INDEX ON `" + bucket + "` USING GSI;"] &&
            run.outcome == Failed(e) &&
            CreationOutcomeAsWritten(|run.statements|, [Arrival(0, CreateFailed(e))] + arrivals) == Crashed(e)
  {
    var all := [Arrival(0, CreateFailed(e))] + arrivals;
    var stmt := "CREATE PRIMARY INDEX ON `" + bucket + "` USING GSI;";
    CheckCreatesEverythingAsPrimary(bucket, [], [], all);
    var run := Check(bucket, [], Listed([]), all);
    assert |run.statements| == 1;
    assert Prop(PrimaryEntry, "using") == Str("GSI");
    assert FromEntry(WithPrimary([])[0]).using == Str("GSI");
    assert run.statements[0] == stmt;
    assert run.statements == [stmt];
    assert Refuses(all[0], 1, false);
    assert FirstRefusal(all, 1, false) == Some(e);
  }
}

=== FILE: IndexModel.dfy ===
/**
 * `IndexModel`: the record the index checker builds for every wanted and every existing
 * N1QL index, so that both lists are compared and rendered alike.
 */
module IndexModel {
  import opened JsValues

  /** The four fields of an index description, each as the JavaScript value it holds. */
  datatype IndexModel = IndexModel(name: Json, isPrimary: Json, using: Json, indexKey: Json)

  /** `new IndexModel(name, is_primary, using, index_key)` as written: the name is kept,
      `is_primary || true` can never be false, and `using` and `index_key` fall back to
      `"GSI"` and `[]` when falsy. */
  function New(name: Json, isPrimary: Json, using: Json, indexKey: Json): (m: IndexModel)
    ensures m.name == name
    ensures Truthy(m.isPrimary)
    ensures Truthy(isPrimary) ==> m.isPrimary == isPrimary
    ensures Truthy(m.using) && (Truthy(using) <==> m.using == using)
    ensures Truthy(m.indexKey) && (Truthy(indexKey) <==> m.indexKey == indexKey)
    ensures !Truthy(isPrimary) ==> m.isPrimary == Bool(true)
    ensures !Truthy(using) ==> m.using == Str("GSI")
    ensures !Truthy(indexKey) ==> m.indexKey == Arr([])
  {
    IndexModel(name, Or(isPrimary, Bool(true)), Or(using, Str("GSI")), Or(indexKey, Arr([])))
  }

  /** The index description held by one entry object, read field by field. */
  function FromEntry(entry: Json): IndexModel {
    New(Prop(entry, "name"), Prop(entry, "is_primary"), Prop(entry, "using"), Prop(entry, "index_key"))
  }

  /** The constructor with the evidently intended `is_primary`: a missing or false flag
      describes a secondary index. The other defaults are as written. */
  function NewExplicit(name: Json, isPrimary: Json, using: Json, indexKey: Json): (m: IndexModel)
    ensures m.name == name
    ensures m.isPrimary == Bool(Truthy(isPrimary))
    ensures m.using == New(name, isPrimary, using, indexKey).using
    ensures m.indexKey == New(name, isPrimary, using, indexKey).indexKey
  {
    IndexModel(name, Bool(Truthy(isPrimary)), Or(using, Str("GSI")), Or(indexKey, Arr([])))
  }

  function FromEntryExplicit(entry: Json): IndexModel {
    NewExplicit(Prop(entry, "name"), Prop(entry, "is_primary"), Prop(entry, "using"), Prop(entry, "index_key"))
  }

  /** Building a model from a model's own fields changes nothing: the defaults are applied
      once. */
  lemma NewIsIdempotent(name: Json, isPrimary: Json, using: Json, indexKey: Json)
    ensures var m := New(name, isPrimary, using, indexKey);
            New(m.name, m.isPrimary, m.using, m.indexKey) == m
    ensures var m := NewExplicit(name, isPrimary, using, indexKey);
            NewExplicit(m.name, m.isPrimary, m.using, m.indexKey) == m
  {
  }

  /** As written an explicit `is_primary: false` still yields a primary index; with the
      explicit reading it yields a secondary one. */
  lemma FalsePrimaryIgnored()
    ensures Truthy(New(Str("byType"), Bool(false), Str("GSI"), Arr([Str("type")])).isPrimary)
    ensures !Truthy(NewExplicit(Str("byType"), Bool(false), Str("GSI"), Arr([Str("type")])).isPrimary)
  {
  }
}

=== FILE: JsValues.dfy ===
/**
 * The JavaScript values the adapter handles: options bags, documents, store results,
 * and the few language rules the adapter leans on (truthiness, `||` defaulting,
 * property reads, string conversion, `_.extend`, `for .. in`).
 */
module JsValues {

  /** A JavaScript value. Numbers are integers; an object is an association list kept in
      insertion order (`for .. in` visits array-index keys first, see `ForInOrder`); a
      function value carries only its source text, which is what string conversion yields
      for it. */
  datatype Json =
    | Undefined
    | Null
    | Bool(b: bool)
    | Num(n: int)
    | Str(s: string)
    | Arr(items: seq<Json>)
    | Obj(fields: seq<(string, Json)>)
    | Fn(source: string)

  /** `v == null` in JavaScript: true exactly for null and undefined. */
  predicate Nullish(v: Json) {
    v.Undefined? || v.Null?
  }

  /** `v != null`: the adapter's test for "the option was given". */
  predicate Present(v: Json) {
    !Nullish(v)
  }

  /** JavaScript truthiness: undefined, null, false, 0 and "" are falsy. */
  predicate Truthy(v: Json) {
    match v
    case Undefined => false
    case Null => false
    case Bool(b) => b
    case Num(n) => n != 0
    case Str(s) => s != ""
    case _ => true
  }

  /** `a || b`: the left operand when it is truthy, otherwise the right one. */
  function Or(a: Json, b: Json): Json {
    if Truthy(a) then a else b
  }

  /** The first binding of `key` in an association list, or undefined. */
  function Lookup(fields: seq<(string, Json)>, key: string): Json {
    if |fields| == 0 then Undefined
    else if fields[0].0 == key then fields[0].1
    else Lookup(fields[1..], key)
  }

  predicate HasKey(fields: seq<(string, Json)>, key: string) {
    exists i :: 0 <= i < |fields| && fields[i].0 == key
  }

  /** The keys of an association list, in order. */
  function Keys(fields: seq<(string, Json)>): (ks: seq<string>)
    ensures |ks| == |fields|
    ensures forall i :: 0 <= i < |fields| ==> ks[i] == fields[i].0
  {
    if |fields| == 0 then [] else [fields[0].0] + Keys(fields[1..])
  }

  /** A JavaScript object never binds one key twice. */
  predicate UniqueKeys(fields: seq<(string, Json)>) {
    forall i, j :: 0 <= i < j < |fields| ==> fields[i].0 != fields[j].0
  }

  /** `v[key]` for a property name; a non-object has none of the properties the adapter
      reads. */
  function Prop(v: Json, key: string): Json {
    match v
    case Obj(fields) => Lookup(fields, key)
    case _ => Undefined
  }

  /** `v[0]`: the first element of an array, the first character of a string, the
      property "0" of an object, and undefined otherwise. */
  function Index0(v: Json): Json {
    match v
    case Arr(items) => if |items| > 0 then items[0] else Undefined
    case Str(s) => if |s| > 0 then Str(s[..1]) else Undefined
    case Obj(fields) => Lookup(fields, "0")
    case _ => Undefined
  }

  function DigitChar(d: nat): char
    requires d < 10
  {
    "0123456789"[d]
  }

  function NatToString(n: nat): string
    decreases n
  {
    if n < 10 then [DigitChar(n)] else NatToString(n / 10) + [DigitChar(n % 10)]
  }

  /** String conversion of a value, as `"" + v` performs it. */
  function ToJsString(v: Json): string
    decreases v
  {
    match v
    case Undefined => "undefined"
    case Null => "null"
    case Bool(b) => if b then "true" else "false"
    case Num(n) => if n < 0 then "-" + NatToString(-n) else NatToString(n)
    case Str(s) => s
    case Arr(items) => JoinValues(items, ",")
    case Obj(_) => "[object Object]"
    case Fn(source) => source
  }

  /** `Array.prototype.join(sep)`: null and undefined elements become the empty string. */
  function JoinValues(items: seq<Json>, sep: string): string
    decreases items
  {
    if |items| == 0 then ""
    else
      var head := if Nullish(items[0]) then "" else ToJsString(items[0]);
      if |items| == 1 then head else head + sep + JoinValues(items[1..], sep)
  }

  /** Binds `key` to `value`: the first existing binding is overwritten in place, and a
      new key is appended at the end. */
  function SetField(fields: seq<(string, Json)>, key: string, value: Json): seq<(string, Json)> {
    if |fields| == 0 then [(key, value)]
    else if fields[0].0 == key then [(key, value)] + fields[1..]
    else [fields[0]] + SetField(fields[1..], key, value)
  }

  /** Copies every binding of `src`, in order, onto `fields`. */
  function Assign(fields: seq<(string, Json)>, src: seq<(string, Json)>): seq<(string, Json)>
    decreases |src|
  {
    if |src| == 0 then fields
    else Assign(SetField(fields, src[0].0, src[0].1), src[1..])
  }

  /** `_.extend(target, src)`: an object target receives every binding of `src`; any other
      target is returned as it is (null and undefined unchanged, a primitive cannot hold
      properties, and the extra properties of an array or function do not survive the JSON
      the store persists). */
  function Extend(target: Json, src: seq<(string, Json)>): Json {
    match target
    case Obj(fields) => Obj(Assign(fields, src))
    case _ => target
  }

  /** `item.value` for each row of a list, in order. */
  function RowValues(rows: seq<Json>): (vs: seq<Json>)
    ensures |vs| == |rows|
    ensures forall i :: 0 <= i < |rows| ==> vs[i] == Prop(rows[i], "value")
  {
    if |rows| == 0 then [] else [Prop(rows[0], "value")] + RowValues(rows[1..])
  }

  /** `for (id in result) response.push(result[id].value)`: an object yields its entries'
      `.value` in `for .. in` order, a string yields one undefined per character, and the
      other values have no enumerable keys. */
  function ForInValues(v: Json): seq<Json> {
    match v
    case Obj(fields) => FieldValues(fields)
    case Str(s) => seq(|s|, _ => Undefined)
    case Arr(items) => RowValues(items)
    case _ => []
  }

  /** The entries' `.value`, in the order `for .. in` visits the entries. */
  function FieldValues(fields: seq<(string, Json)>): (vs: seq<Json>)
    ensures |vs| == |fields|
    ensures forall i :: 0 <= i < |fields| ==> vs[i] == Prop(ForInOrder(fields)[i].1, "value")
  {
    EntryValues(ForInOrder(fields))
  }

  function EntryValues(fields: seq<(string, Json)>): (vs: seq<Json>)
    ensures |vs| == |fields|
    ensures forall i :: 0 <= i < |fields| ==> vs[i] == Prop(fields[i].1, "value")
  {
    if |fields| == 0 then [] else [Prop(fields[0].1, "value")] + EntryValues(fields[1..])
  }

  // Property enumeration order (OrdinaryOwnPropertyKeys, section 10.1.11.1 of ECMA-262):
  // the keys that are array indices come first, in ascending numeric order, and the other
  // string keys follow in insertion order.

  predicate IsDigit(c: char) {
    '0' <= c <= '9'
  }

  predicate AllDigits(s: string) {
    forall i :: 0 <= i < |s| ==> IsDigit(s[i])
  }

  /** The number a string of decimal digits spells. */
  function DigitsValue(s: string): nat
    requires AllDigits(s)
  {
    if |s| == 0 then 0 else 10 * DigitsValue(s[..|s| - 1]) + (s[|s| - 1] as int - '0' as int)
  }

  /** The largest array index, 2^32 - 2. */
  const MaxArrayIndex: nat := 0xFFFF_FFFE

  /** An array index: the canonical decimal form (no leading zero) of an integer no larger
      than 2^32 - 2. */
  predicate IsArrayIndex(k: string) {
    |k| > 0 && AllDigits(k) && (k[0] != '0' || |k| == 1) && DigitsValue(k) <= MaxArrayIndex
  }

  function IndexValue(k: string): nat
    requires IsArrayIndex(k)
  {
    DigitsValue(k)
  }

  predicate AllIndexKeys(es: seq<(string, Json)>) {
    forall i :: 0 <= i < |es| ==> IsArrayIndex(es[i].0)
  }

  /** Where an entry goes in `for .. in` order among the array-index keys. */
  function Rank(e: (string, Json)): nat {
    if IsArrayIndex(e.0) then DigitsValue(e.0) else 0
  }

  /** The entries are array-index keys in ascending numeric order. */
  predicate SortedByIndex(es: seq<(string, Json)>) {
    AllIndexKeys(es) && Ascending(es)
  }

  predicate Ascending(es: seq<(string, Json)>) {
    forall i, j :: 0 <= i < j < |es| ==> Rank(es[i]) <= Rank(es[j])
  }

  /** The entries whose key is an array index, in insertion order. */
  function IndexEntries(fields: seq<(string, Json)>): (es: seq<(string, Json)>)
    ensures AllIndexKeys(es)
  {
    if |fields| == 0 then []
    else (if IsArrayIndex(fields[0].0) then [fields[0]] else []) + IndexEntries(fields[1..])
  }

  /** The entries whose key is not an array index, in insertion order. */
  function NamedEntries(fields: seq<(string, Json)>): (es: seq<(string, Json)>)
    ensures forall i :: 0 <= i < |es| ==> !IsArrayIndex(es[i].0)
  {
    if |fields| == 0 then []
    else (if IsArrayIndex(fields[0].0) then [] else [fields[0]]) + NamedEntries(fields[1..])
  }

  /** Inserts `e` before the first entry of no smaller rank. */
  function InsertByRank(e: (string, Json), sorted: seq<(string, Json)>): (r: seq<(string, Json)>)
    requires Ascending(sorted)
    ensures Ascending(r)
    ensures |r| == |sorted| + 1
    ensures forall i :: 0 <= i < |r| ==> r[i] == e || r[i] in sorted
    ensures multiset(r) == multiset(sorted) + multiset{e}
  {
    if |sorted| == 0 then [e]
    else if Rank(e) <= Rank(sorted[0]) then [e] + sorted
    else
      var rest := InsertByRank(e, sorted[1..]);
      assert sorted == [sorted[0]] + sorted[1..];
      HeadBelowInsert(e, sorted, rest);
      AscendingCons(sorted[0], rest);
      [sorted[0]] + rest
  }

  /** The head of an ascending list ranks no higher than anything in its tail with an
      entry of higher rank inserted. */
  lemma HeadBelowInsert(e: (string, Json), sorted: seq<(string, Json)>, rest: seq<(string, Json)>)
    requires |sorted| > 0 && Ascending(sorted) && Rank(sorted[0]) < Rank(e)
    requires forall i :: 0 <= i < |rest| ==> rest[i] == e || rest[i] in sorted[1..]
    ensures forall i :: 0 <= i < |rest| ==> Rank(sorted[0]) <= Rank(rest[i])
  {
    forall i | 0 <= i < |rest| ensures Rank(sorted[0]) <= Rank(rest[i]) {
      if rest[i] != e {
        var k :| 0 <= k < |sorted[1..]| && sorted[1..][k] == rest[i];
        assert sorted[k + 1] == rest[i];
      }
    }
  }

  lemma AscendingCons(x: (string, Json), rest: seq<(string, Json)>)
    requires Ascending(rest)
    requires forall i :: 0 <= i < |rest| ==> Rank(x) <= Rank(rest[i])
    ensures Ascending([x] + rest)
  {
    var r := [x] + rest;
    forall i, j | 0 <= i < j < |r| ensures Rank(r[i]) <= Rank(r[j]) {
      assert r[j] == rest[j - 1];
      if i > 0 {
        assert r[i] == rest[i - 1];
      }
    }
  }

  function SortByRank(es: seq<(string, Json)>): (r: seq<(string, Json)>)
    ensures Ascending(r)
    ensures forall i :: 0 <= i < |r| ==> r[i] in es
    ensures multiset(r) == multiset(es)
  {
    if |es| == 0 then []
    else
      assert es == [es[0]] + es[1..];
      InsertByRank(es[0], SortByRank(es[1..]))
  }

  /** The order in which `for .. in` visits an object's entries: the array-index keys in
      ascending numeric order, then every other key in insertion order. */
  function ForInOrder(fields: seq<(string, Json)>): (order: seq<(string, Json)>)
    ensures |order| == |fields| && multiset(order) == multiset(fields)
    ensures forall i, j :: 0 <= i < j < |order| && IsArrayIndex(order[j].0) ==> IsArrayIndex(order[i].0)
    ensures forall i, j :: 0 <= i < j < |order| && IsArrayIndex(order[i].0) && IsArrayIndex(order[j].0) ==>
              IndexValue(order[i].0) <= IndexValue(order[j].0)
    ensures NamedEntries(order) == NamedEntries(fields)
  {
    var sorted := SortByRank(IndexEntries(fields));
    var named := NamedEntries(fields);
    IndexKeysFirst(sorted, named);
    EntriesPartition(fields);
    NamedOfConcat(sorted, named);
    NoNamedEntries(sorted);
    NamedOfNamed(fields);
    assert multiset(sorted + named) == multiset(sorted) + multiset(named);
    assert |multiset(sorted + named)| == |sorted + named|;
    assert |multiset(fields)| == |fields|;
    sorted + named
  }

  lemma IndexKeysFirst(sorted: seq<(string, Json)>, named: seq<(string, Json)>)
    requires AllIndexKeys(sorted) && Ascending(sorted)
    requires forall i :: 0 <= i < |named| ==> !IsArrayIndex(named[i].0)
    ensures forall i, j :: 0 <= i < j < |sorted + named| && IsArrayIndex((sorted + named)[j].0) ==> IsArrayIndex((sorted + named)[i].0)
    ensures forall i, j :: 0 <= i < j < |sorted + named| && IsArrayIndex((sorted + named)[i].0) && IsArrayIndex((sorted + named)[j].0) ==>
              IndexValue((sorted + named)[i].0) <= IndexValue((sorted + named)[j].0)
  {
    var order := sorted + named;
    forall i, j | 0 <= i < j < |order| && IsArrayIndex(order[j].0)
      ensures IsArrayIndex(order[i].0) && Rank(order[i]) <= Rank(order[j])
    {
      assert j < |sorted|;
      assert order[j] == sorted[j] && order[i] == sorted[i];
    }
  }

  /** Every entry is an index entry or a named one. */
  lemma {:induction false} EntriesPartition(fields: seq<(string, Json)>)
    ensures multiset(IndexEntries(fields)) + multiset(NamedEntries(fields)) == multiset(fields)
  {
    if |fields| > 0 {
      var f, rest := fields[0], fields[1..];
      EntriesPartition(rest);
      assert fields == [f] + rest;
      if IsArrayIndex(f.0) {
        assert IndexEntries(fields) == [f] + IndexEntries(rest);
        assert NamedEntries(fields) == NamedEntries(rest);
      } else {
        assert IndexEntries(fields) == IndexEntries(rest);
        assert NamedEntries(fields) == [f] + NamedEntries(rest);
      }
    }
  }

  lemma {:induction false} NamedOfConcat(a: seq<(string, Json)>, b: seq<(string, Json)>)
    ensures NamedEntries(a + b) == NamedEntries(a) + NamedEntries(b)
  {
    if |a| == 0 {
      assert a + b == b;
    } else {
      assert (a + b)[1..] == a[1..] + b;
      NamedOfConcat(a[1..], b);
    }
  }

  lemma {:induction false} NoNamedEntries(es: seq<(string, Json)>)
    requires AllIndexKeys(es)
    ensures NamedEntries(es) == []
  {
    if |es| > 0 {
      NoNamedEntries(es[1..]);
    }
  }

  lemma {:induction false} NamedOfNamed(fields: seq<(string, Json)>)
    ensures NamedEntries(NamedEntries(fields)) == NamedEntries(fields)
  {
    if |fields| > 0 {
      NamedOfNamed(fields[1..]);
      var rest := NamedEntries(fields[1..]);
      if !IsArrayIndex(fields[0].0) {
        var named := [fields[0]] + rest;
        assert NamedEntries(fields) == named;
        assert named[0] == fields[0] && named[1..] == rest;
        assert NamedEntries(named) == [fields[0]] + NamedEntries(rest);
      } else {
        assert NamedEntries(fields) == rest;
      }
    }
  }

  /** Without array-index keys, `for .. in` follows insertion order. */
  lemma {:induction false} ForInOrderWithoutIndexKeys(fields: seq<(string, Json)>)
    requires forall i :: 0 <= i < |fields| ==> !IsArrayIndex(fields[i].0)
    ensures ForInOrder(fields) == fields
  {
    NoIndexEntries(fields);
    NamedIsAll(fields);
  }

  lemma {:induction false} NoIndexEntries(fields: seq<(string, Json)>)
    requires forall i :: 0 <= i < |fields| ==> !IsArrayIndex(fields[i].0)
    ensures IndexEntries(fields) == []
  {
    if |fields| > 0 {
      NoIndexEntries(fields[1..]);
    }
  }

  lemma {:induction false} NamedIsAll(fields: seq<(string, Json)>)
    requires forall i :: 0 <= i < |fields| ==> !IsArrayIndex(fields[i].0)
    ensures NamedEntries(fields) == fields
  {
    if |fields| > 0 {
      NamedIsAll(fields[1..]);
      assert fields == [fields[0]] + fields[1..];
    }
  }

  lemma TenAndTwoAreIndices()
    ensures IsArrayIndex("10") && DigitsValue("10") == 10
    ensures IsArrayIndex("2") && DigitsValue("2") == 2
  {
    assert "10"[..1] == "1";
    assert DigitsValue("1") == 1 by { assert "1"[..0] == ""; }
    assert DigitsValue("2") == 2 by { assert "2"[..0] == ""; }
  }

  /** Both keys are array indices, so the named part is empty and `"2"` sorts first. */
  lemma TenAndTwoSorted(ten: (string, Json), two: (string, Json))
    requires ten.0 == "10" && two.0 == "2"
    ensures IndexEntries([ten, two]) == [ten, two] && NamedEntries([ten, two]) == []
    ensures SortByRank([ten, two]) == [two, ten]
  {
    TenAndTwoAreIndices();
    TwoIndexEntries(ten, two);
    SortTwo(ten, two);
  }

  lemma TwoIndexEntries(a: (string, Json), b: (string, Json))
    requires IsArrayIndex(a.0) && IsArrayIndex(b.0)
    ensures IndexEntries([a, b]) == [a, b] && NamedEntries([a, b]) == []
  {
    assert [a, b][1..] == [b];
    assert IndexEntries([b]) == [b] + IndexEntries([]);
    assert NamedEntries([b]) == [] + NamedEntries([]);
  }

  lemma SortTwo(a: (string, Json), b: (string, Json))
    requires Rank(b) < Rank(a)
    ensures SortByRank([a, b]) == [b, a]
  {
    assert [a, b][1..] == [b];
    assert [b][1..] == [];
    assert SortByRank([b]) == InsertByRank(b, []) == [b];
    assert InsertByRank(a, [b]) == [b] + InsertByRank(a, []);
  }

  lemma TenAfterTwo(ten: (string, Json), two: (string, Json))
    requires ten.0 == "10" && two.0 == "2"
    ensures ForInOrder([ten, two]) == [two, ten]
    ensures FieldValues([ten, two]) == EntryValues([two, ten])
  {
    TenAndTwoSorted(ten, two);
    assert ForInOrder([ten, two]) == [two, ten] + [];
  }

  /** In the multi-get answer `{"10": {value: x}, "2": {value: y}}` the key `"2"` is
      visited first, so the values come out as `[y, x]`. */
  lemma ForInVisitsIndexKeysAscending(x: Json, y: Json)
    ensures FieldValues([("10", Obj([("value", x)])), ("2", Obj([("value", y)]))]) == [y, x]
  {
    var ten := ("10", Obj([("value", x)]));
    var two := ("2", Obj([("value", y)]));
    TenAfterTwo(ten, two);
    ValuesOfTwoEntries(two, ten);
    ValueOfWrapped(x);
    ValueOfWrapped(y);
  }

  lemma ValueOfWrapped(v: Json)
    ensures Prop(Obj([("value", v)]), "value") == v
  {
  }


  lemma ValuesOfTwoEntries(a: (string, Json), b: (string, Json))
    ensures EntryValues([a, b]) == [Prop(a.1, "value"), Prop(b.1, "value")]
  {
    assert [a, b][1..] == [b];
  }




  /** Overwriting one binding leaves every other key's value alone. */
  lemma {:induction false} SetFieldLookup(fields: seq<(string, Json)>, key: string, value: Json, k: string)
    ensures Lookup(SetField(fields, key, value), k) == if k == key then value else Lookup(fields, k)
    decreases |fields|
  {
    if |fields| > 0 && fields[0].0 != key {
      SetFieldLookup(fields[1..], key, value, k);
    }
  }

  /** Overwriting one binding keeps every existing key at its position. */
  lemma {:induction false} SetFieldKeepsKeys(fields: seq<(string, Json)>, key: string, value: Json)
    ensures |SetField(fields, key, value)| >= |fields|
    ensures Keys(SetField(fields, key, value))[..|fields|] == Keys(fields)
    decreases |fields|
  {
    if |fields| > 0 && fields[0].0 != key {
      SetFieldKeepsKeys(fields[1..], key, value);
    }
  }

  /** `_.extend` with a source that binds each key once: the source's value wins on every
      key it binds, and the target's value is kept on every other key. */
  lemma {:induction false} AssignLookup(fields: seq<(string, Json)>, src: seq<(string, Json)>, k: string)
    requires UniqueKeys(src)
    ensures Lookup(Assign(fields, src), k) == if HasKey(src, k) then Lookup(src, k) else Lookup(fields, k)
    decreases |src|
  {
    if |src| > 0 {
      var rest := src[1..];
      assert UniqueKeys(rest) by {
        forall i, j | 0 <= i < j < |rest| ensures rest[i].0 != rest[j].0 {
          assert rest[i] == src[i + 1] && rest[j] == src[j + 1];
        }
      }
      AssignLookup(SetField(fields, src[0].0, src[0].1), rest, k);
      SetFieldLookup(fields, src[0].0, src[0].1, k);
      if k == src[0].0 {
        assert !HasKey(rest, k) by {
          forall i | 0 <= i < |rest| ensures rest[i].0 != k {
            assert rest[i] == src[i + 1];
          }
        }
      } else {
        assert HasKey(src, k) <==> HasKey(rest, k) by {
          if HasKey(src, k) {
            var i :| 0 <= i < |src| && src[i].0 == k;
            assert rest[i - 1] == src[i];
          }
          if HasKey(rest, k) {
            var i :| 0 <= i < |rest| && rest[i].0 == k;
            assert src[i + 1] == rest[i];
          }
        }
      }
    }
  }

  /** `_.extend` never drops or reorders the target's keys: they stay a prefix. */
  lemma {:induction false} AssignKeepsKeys(fields: seq<(string, Json)>, src: seq<(string, Json)>)
    ensures |Assign(fields, src)| >= |fields|
    ensures Keys(Assign(fields, src))[..|fields|] == Keys(fields)
    decreases |src|
  {
    if |src| > 0 {
      var f1 := SetField(fields, src[0].0, src[0].1);
      SetFieldKeepsKeys(fields, src[0].0, src[0].1);
      AssignKeepsKeys(f1, src[1..]);
      assert Keys(Assign(fields, src))[..|f1|] == Keys(f1);
      assert Keys(Assign(fields, src))[..|fields|] == Keys(Assign(fields, src))[..|f1|][..|fields|];
    }
  }

  /** `_.isEqual(a, b)`: deep structural equality in which the order of an object's keys
      does not matter but the order of an array's elements does. */
  predicate DeepEqual(a: Json, b: Json)
    decreases a
  {
    match a
    case Arr(xs) =>
      b.Arr? && |xs| == |b.items| && forall i :: 0 <= i < |xs| ==> DeepEqual(xs[i], b.items[i])
    case Obj(fs) =>
      b.Obj? && |fs| == |b.fields| &&
      forall i :: 0 <= i < |fs| ==> HasKey(b.fields, fs[i].0) && DeepEqual(fs[i].1, Lookup(b.fields, fs[i].0))
    case _ => a == b
  }

  lemma {:induction false} LookupFirst(fields: seq<(string, Json)>, i: nat)
    requires i < |fields|
    requires forall j :: 0 <= j < i ==> fields[j].0 != fields[i].0
    ensures Lookup(fields, fields[i].0) == fields[i].1
  {
    if i > 0 {
      LookupFirst(fields[1..], i - 1);
    }
  }

  /** Every document with unique keys at every level is deep-equal to itself. */
  lemma {:induction false} DeepEqualReflexive(a: Json)
    requires WellFormed(a)
    ensures DeepEqual(a, a)
    decreases a
  {
    match a
    case Arr(xs) =>
      forall i | 0 <= i < |xs| ensures DeepEqual(xs[i], xs[i]) {
        DeepEqualReflexive(xs[i]);
      }
    case Obj(fs) =>
      forall i | 0 <= i < |fs| ensures HasKey(fs, fs[i].0) && DeepEqual(fs[i].1, Lookup(fs, fs[i].0)) {
        LookupFirst(fs, i);
        DeepEqualReflexive(fs[i].1);
      }
    case _ =>
  }

  /** A value as JavaScript can build it: no object binds a key twice. */
  predicate WellFormed(a: Json)
    decreases a
  {
    match a
    case Arr(xs) => forall i :: 0 <= i < |xs| ==> WellFormed(xs[i])
    case Obj(fs) => UniqueKeys(fs) && forall i :: 0 <= i < |fs| ==> WellFormed(fs[i].1)
    case _ => true
  }
}

=== FILE: KeyCodec.dfy ===
/**
 * The document-key codec `_keyFormat` / `_keysFormat`, identical in both generations of the
 * adapter: a resource path is percent-decoded, loses at most one leading `/`, and has every
 * remaining `/` replaced by the configured separator.
 */
module KeyCodec {
  import opened Results
  import opened JsValues
  import opened Uri

  /** `url.replace(/^(\/)/, '')`. */
  function StripLeadingSlash(s: string): string {
    if |s| > 0 && s[0] == '/' then s[1..] else s
  }

  /** The replacement text for a one-character match at `pos` of `s`, from a replacement
      string with no capture groups to refer to (GetSubstitution, section 22.1.3.19.1 of
      ECMA-262): `$$` is a dollar sign, `$&` the match, `` $` `` the text before it, `$'`
      the text after it, and every other character stands for itself. */
  function Substitute(template: string, s: string, pos: nat): (r: string)
    requires pos < |s|
    ensures '$' !in template ==> r == template
    decreases |template|
  {
    if |template| == 0 then []
    else if template[0] == '$' && |template| >= 2 && template[1] in "$&`'" then
      var expansion :=
        if template[1] == '$' then "$"
        else if template[1] == '&' then [s[pos]]
        else if template[1] == '`' then s[..pos]
        else s[pos + 1..];
      expansion + Substitute(template[2..], s, pos)
    else
      [template[0]] + Substitute(template[1..], s, pos)
  }

  /** `url.replace(/\//g, sep)`: each `/` from position `i` on is replaced by the separator
      with its `$` patterns expanded. */
  function ReplaceFrom(s: string, sep: string, i: nat): string
    requires i <= |s|
    decreases |s| - i
  {
    if i == |s| then []
    else (if s[i] == '/' then Substitute(sep, s, i) else [s[i]]) + ReplaceFrom(s, sep, i + 1)
  }

  function ReplaceSlashes(s: string, sep: string): string {
    ReplaceFrom(s, sep, 0)
  }

  /** Every `/` replaced by the separator taken literally. */
  function ReplaceLiteral(s: string, sep: string): string {
    if |s| == 0 then []
    else (if s[0] == '/' then sep else [s[0]]) + ReplaceLiteral(s[1..], sep)
  }

  /** A separator without `$` is inserted as it is. */
  lemma {:induction false} ReplaceWithoutPatterns(s: string, sep: string, i: nat)
    requires i <= |s| && '$' !in sep
    ensures ReplaceFrom(s, sep, i) == ReplaceLiteral(s[i..], sep)
    decreases |s| - i
  {
    if i < |s| {
      ReplaceWithoutPatterns(s, sep, i + 1);
      assert s[i..][1..] == s[i + 1..];
    }
  }

  /** A separator written `$&` puts back the `/` it replaces, so `"/a/b"` keeps its inner
      slash: the key is `"a/b"`, not `"a$&b"`. */
  lemma MatchPatternKeepsSlash()
    ensures ReplaceSlashes("a/b", "$&") == "a/b"
    ensures KeyFormat(Some("$&"), "/a/b") == Ok("a/b")
  {
    DecodeWithoutEscapes("/a/b");
    assert StripLeadingSlash("/a/b") == "a/b";
    var s := "a/b";
    assert Substitute("$&", s, 1) == "/" by {
      assert "$&"[2..] == [];
    }
    assert ReplaceFrom(s, "$&", 3) == [];
    assert ReplaceFrom(s, "$&", 2) == "b";
    assert ReplaceFrom(s, "$&", 1) == "/b";
  }

  /** The flattening step on an already decoded path. `None` is the separator that
      disables flattening. */
  function Flatten(path: string, sep: Option<string>): string {
    match sep
    case None => path
    case Some(x) => ReplaceSlashes(StripLeadingSlash(path), x)
  }

  /** `_keyFormat(url)`: decoding throws on a malformed escape, and the key is never built. */
  function KeyFormat(sep: Option<string>, url: string): (r: Result<string, UriError>)
    ensures r.Ok? <==> Decode(url).Ok?
    ensures r.Ok? ==> r.value == Flatten(Decode(url).value, sep)
    ensures r.Ok? && sep.None? ==> r.value == Decode(url).value
    ensures r.Ok? && sep.Some? && '$' !in sep.value ==>
              r.value == Join(Split(StripLeadingSlash(Decode(url).value)), sep.value)
    ensures r.Ok? && sep.Some? && '$' !in sep.value && '/' !in sep.value ==> '/' !in r.value
  {
    match Decode(url)
    case Err(e) => Err(e)
    case Ok(path) =>
      FlattenIsJoin(path, sep);
      Ok(Flatten(path, sep))
  }

  /** Without `$` patterns, flattening joins the segments after the leading `/` with the
      separator, and a `/`-free separator leaves no `/` behind. */
  lemma FlattenIsJoin(path: string, sep: Option<string>)
    ensures sep.Some? && '$' !in sep.value ==>
              Flatten(path, sep) == Join(Split(StripLeadingSlash(path)), sep.value)
    ensures sep.Some? && '$' !in sep.value && '/' !in sep.value ==> '/' !in Flatten(path, sep)
  {
    if sep.Some? && '$' !in sep.value {
      var rest := StripLeadingSlash(path);
      ReplaceWithoutPatterns(rest, sep.value, 0);
      assert rest[0..] == rest;
      ReplaceIsJoinOfSplit(rest, sep.value);
      if '/' !in sep.value {
        NoSlashInKey(rest, sep.value);
      }
    }
  }

  /** `_keysFormat(url, ids)`: the key of `url + "/" + id` for every id, in order; the first
      id whose path does not decode makes the whole call throw. */
  function KeysFormat(sep: Option<string>, url: string, ids: seq<Json>): (r: Result<seq<string>, UriError>)
    ensures r.Ok? <==> forall i :: 0 <= i < |ids| ==> KeyFormat(sep, url + "/" + ToJsString(ids[i])).Ok?
    ensures r.Ok? ==> |r.value| == |ids|
    ensures r.Ok? ==> forall i :: 0 <= i < |ids| ==>
                        r.value[i] == KeyFormat(sep, url + "/" + ToJsString(ids[i])).value
  {
    if |ids| == 0 then Ok([])
    else
      match KeyFormat(sep, url + "/" + ToJsString(ids[0]))
      case Err(e) => Err(e)
      case Ok(k) =>
        match KeysFormat(sep, url, ids[1..])
        case Err(e) => Err(e)
        case Ok(ks) => Ok([k] + ks)
  }

  // An independent description of the flattening: split the path at each `/` and join the
  // pieces with the separator.

  /** The `/`-separated segments of a path; there is always at least one. */
  function Split(s: string): (parts: seq<string>)
    ensures |parts| >= 1
  {
    if |s| == 0 then [[]]
    else
      var rest := Split(s[1..]);
      if s[0] == '/' then [[]] + rest else [[s[0]] + rest[0]] + rest[1..]
  }

  function Join(parts: seq<string>, sep: string): string
    requires |parts| >= 1
  {
    if |parts| == 1 then parts[0] else parts[0] + sep + Join(parts[1..], sep)
  }

  lemma JoinCons(parts: seq<string>, sep: string)
    requires |parts| >= 2
    ensures Join(parts, sep) == parts[0] + sep + Join(parts[1..], sep)
  {
  }

  /** Replacing every `/` is joining the segments with the separator. */
  lemma {:induction false} ReplaceIsJoinOfSplit(s: string, sep: string)
    ensures ReplaceLiteral(s, sep) == Join(Split(s), sep)
    decreases |s|
  {
    if |s| > 0 {
      var rest := Split(s[1..]);
      ReplaceIsJoinOfSplit(s[1..], sep);
      if s[0] == '/' {
        assert ([[]] + rest)[1..] == rest;
      } else {
        var parts := [[s[0]] + rest[0]] + rest[1..];
        assert parts[1..] == rest[1..];
        if |rest| == 1 {
          assert Join(rest, sep) == rest[0];
        } else {
          JoinCons(rest, sep);
        }
      }
    }
  }

  /** A slash-free prefix glues onto the first segment. */
  lemma {:induction false} SplitOfPlainPrefix(p: string, t: string)
    requires '/' !in p
    ensures Split(p + t) == [p + Split(t)[0]] + Split(t)[1..]
    decreases |p|
  {
    if |p| > 0 {
      assert (p + t)[1..] == p[1..] + t;
      assert (p + t)[0] == p[0];
      SplitOfPlainPrefix(p[1..], t);
      assert [p[0]] + (p[1..] + Split(t)[0]) == p + Split(t)[0];
    } else {
      var parts := Split(t);
      assert p + t == t;
      assert p + parts[0] == parts[0];
      assert [parts[0]] + parts[1..] == parts;
    }
  }

  /** Joining slash-free segments with `/` and splitting again gives the segments back. */
  lemma {:induction false} SplitOfJoin(parts: seq<string>)
    requires |parts| >= 1
    requires forall i :: 0 <= i < |parts| ==> '/' !in parts[i]
    ensures Split(Join(parts, "/")) == parts
    decreases |parts|
  {
    if |parts| == 1 {
      SplitOfPlainPrefix(parts[0], []);
      assert parts[0] + [] == parts[0];
    } else {
      var tail := Join(parts[1..], "/");
      SplitOfJoin(parts[1..]);
      assert Join(parts, "/") == parts[0] + ("/" + tail);
      SplitOfPlainPrefix(parts[0], "/" + tail);
      assert ("/" + tail)[1..] == tail;
      assert Split("/" + tail) == [[]] + parts[1..];
      assert parts[0] + [] == parts[0];
    }
  }

  lemma {:induction false} NoCharInJoin(parts: seq<string>, sep: string, c: char)
    requires |parts| >= 1
    requires c !in sep
    requires forall i :: 0 <= i < |parts| ==> c !in parts[i]
    ensures c !in Join(parts, sep)
    decreases |parts|
  {
    if |parts| > 1 {
      NoCharInJoin(parts[1..], sep, c);
    }
  }

  /** The key of a path written `/seg1/seg2/...` is the segments joined by the separator,
      so `"/a/b/c"` becomes `"a::b::c"` and only the first of two leading slashes goes:
      `"//a"` (segments `""` and `"a"`) becomes `"::a"`. */
  lemma KeyOfSegments(segs: seq<string>, sep: string)
    requires |segs| >= 1 && '$' !in sep
    requires forall i :: 0 <= i < |segs| ==> '/' !in segs[i] && '%' !in segs[i]
    ensures KeyFormat(Some(sep), "/" + Join(segs, "/")) == Ok(Join(segs, sep))
  {
    var path := "/" + Join(segs, "/");
    NoCharInJoin(segs, "/", '%');
    assert '%' !in path;
    DecodeWithoutEscapes(path);
    assert StripLeadingSlash(path) == Join(segs, "/");
    SplitOfJoin(segs);
  }

  /** Decoding comes before flattening: a path produced by `encodeURIComponent`, whose
      slashes are all escaped as `%2F`, is flattened exactly like the plain path. */
  lemma KeyOfEncodedPath(path: string, sep: Option<string>)
    ensures KeyFormat(sep, Encode(path)) == Ok(Flatten(path, sep))
  {
    DecodeEncode(path);
  }

  /** No `/` survives in a key when the separator has none. */
  lemma {:induction false} NoSlashInKey(s: string, sep: string)
    requires '/' !in sep
    ensures '/' !in ReplaceLiteral(s, sep)
    decreases |s|
  {
    if |s| > 0 {
      NoSlashInKey(s[1..], sep);
    }
  }
}

=== FILE: ResultNormalizer.dfy ===
/**
 * The response shaping inside `couchbase_callback`: a successful store result (a list of
 * rows, a multi-get mapping keyed by id, or one document wrapper) becomes the one value the
 * caller receives. Both generations are modelled; they differ only for list results and in
 * which options mark a multi-get.
 */
module ResultNormalizer {
  import opened Results
  import opened JsValues
  import opened ErrorTranslator

  /** The reduced, ungrouped answer: the first row's value, or 0 for an empty list. */
  function FirstValue(rows: seq<Json>): Json {
    if |rows| > 0 && Present(rows[0]) then Prop(rows[0], "value") else Num(0)
  }

  /** `item.value[0] || item.value` per row: a grouped reduction that the store wrapped in a
      one-element list is unwrapped, and any other value is kept. */
  function GroupedValues(rows: seq<Json>): (vs: seq<Json>)
    ensures |vs| == |rows|
    ensures forall i :: 0 <= i < |rows| ==>
              vs[i] == Or(Index0(Prop(rows[i], "value")), Prop(rows[i], "value"))
  {
    if |rows| == 0 then []
    else
      var v := Prop(rows[0], "value");
      [Or(Index0(v), v)] + GroupedValues(rows[1..])
  }

  /** The older generation (index.js): a list result is reduced whenever `options.reduce`
      is truthy. */
  function ShapeOlder(options: Json, result: Json): (r: Json)
    ensures result.Arr? && Truthy(Prop(options, "reduce")) ==> r == FirstValue(result.items)
    ensures result.Arr? && !Truthy(Prop(options, "reduce")) ==> r == Arr(RowValues(result.items))
    ensures !result.Arr? && Present(Prop(options, "ids")) ==> r == Arr(ForInValues(result))
    ensures !result.Arr? && Nullish(Prop(options, "ids")) ==> r == Prop(result, "value")
  {
    match result
    case Arr(rows) =>
      if Truthy(Prop(options, "reduce")) then FirstValue(rows) else Arr(RowValues(rows))
    case _ =>
      if Present(Prop(options, "ids")) then Arr(ForInValues(result)) else Prop(result, "value")
  }

  /** The newer generation (build/index.js), with the multi-get test reading
      `options.docIds`: a list result is reduced only when the call built a reduced view
      query, and a grouped reduction keeps one value per row. */
  function ShapeNewer(reducedView: bool, options: Json, result: Json): (r: Json)
    ensures result.Arr? && reducedView && !Truthy(Prop(options, "group")) ==> r == FirstValue(result.items)
    ensures result.Arr? && reducedView && Truthy(Prop(options, "group")) ==> r == Arr(GroupedValues(result.items))
    ensures result.Arr? && !reducedView ==> r == Arr(RowValues(result.items))
    ensures !result.Arr? && (Present(Prop(options, "ids")) || Present(Prop(options, "docIds"))) ==>
              r == Arr(ForInValues(result))
    ensures !result.Arr? && Nullish(Prop(options, "ids")) && Nullish(Prop(options, "docIds")) ==>
              r == Prop(result, "value")
  {
    match result
    case Arr(rows) =>
      if reducedView && !Truthy(Prop(options, "group")) then FirstValue(rows)
      else if reducedView then Arr(GroupedValues(rows))
      else Arr(RowValues(rows))
    case _ =>
      if Present(Prop(options, "ids")) || Present(Prop(options, "docIds")) then Arr(ForInValues(result))
      else Prop(result, "value")
  }

  /** The thrown error of reading the undeclared identifier `option`. */
  const OptionNotDefined := ErrorValue(JsError("ReferenceError"), Undefined, "option is not defined")

  /** The newer generation exactly as written: its multi-get test reads `option.docIds`, an
      undeclared identifier, whenever `options.ids` is absent. */
  function ShapeNewerAsWritten(reducedView: bool, options: Json, result: Json): (r: Result<Json, ErrorValue>)
    ensures !result.Arr? && Nullish(Prop(options, "ids")) <==> r == Err(OptionNotDefined)
    ensures r.Ok? ==> r.value == ShapeNewer(reducedView, options, result)
  {
    match result
    case Arr(_) => Ok(ShapeNewer(reducedView, options, result))
    case _ =>
      if Present(Prop(options, "ids")) then Ok(Arr(ForInValues(result)))
      else Err(OptionNotDefined)
  }

  /** As written, every read of a single document throws, for instance fetching
      `{value: {a: 1}}` with no options. */
  lemma SingleDocumentReadThrowsAsWritten()
    ensures ShapeNewerAsWritten(false, Obj([]), Obj([("value", Obj([("a", Num(1))]))])) == Err(OptionNotDefined)
    ensures ShapeNewer(false, Obj([]), Obj([("value", Obj([("a", Num(1))]))])) == Obj([("a", Num(1))])
  {
  }

  /** The two generations shape alike when the newer one reduced exactly when the older
      one's `reduce` option is truthy, no grouping was asked for, and `docIds` plays no
      part. */
  lemma GenerationsAgree(options: Json, result: Json)
    requires !Truthy(Prop(options, "group"))
    requires Present(Prop(options, "ids")) || Nullish(Prop(options, "docIds"))
    ensures ShapeOlder(options, result) == ShapeNewer(Truthy(Prop(options, "reduce")), options, result)
  {
  }

  /** A multi-get answer lists the documents' values one per key of the mapping, in the
      order `for .. in` visits the keys: ids that are array indices ascending, then the
      other ids as the store listed them, which is the listed order when no id is an array
      index. */
  lemma {:induction false} MultiGetValuesInOrder(options: Json, fields: seq<(string, Json)>)
    requires Present(Prop(options, "ids"))
    ensures var r := ShapeOlder(options, Obj(fields));
            r.Arr? && |r.items| == |fields| &&
            forall i :: 0 <= i < |fields| ==> r.items[i] == Prop(ForInOrder(fields)[i].1, "value")
    ensures (forall i :: 0 <= i < |fields| ==> !IsArrayIndex(fields[i].0)) ==>
              forall i :: 0 <= i < |fields| ==> ShapeOlder(options, Obj(fields)).items[i] == Prop(fields[i].1, "value")
    ensures ShapeNewer(false, options, Obj(fields)) == ShapeOlder(options, Obj(fields))
  {
    if forall i :: 0 <= i < |fields| ==> !IsArrayIndex(fields[i].0) {
      ForInOrderWithoutIndexKeys(fields);
    }
  }

  /** The ids `"10"` and `"2"` come back as the values of `"2"`, then `"10"`. */
  lemma MultiGetSortsIndexIds(options: Json, x: Json, y: Json)
    requires Present(Prop(options, "ids"))
    ensures ShapeOlder(options, Obj([("10", Obj([("value", x)])), ("2", Obj([("value", y)]))])) == Arr([y, x])
  {
    ForInVisitsIndexKeysAscending(x, y);
  }

  /** A grouped row whose value the store wrapped as a one-element list with a truthy
      element is unwrapped; a scalar value is kept. */
  lemma GroupedUnwrap(x: Json, n: int)
    requires Truthy(x)
    ensures GroupedValues([Obj([("value", Arr([x]))])]) == [x]
    ensures GroupedValues([Obj([("value", Num(n))])]) == [Num(n)]
  {
  }
}

=== FILE: Results.dfy ===
/** Failure-carrying wrappers shared by every module of the adapter model. */
module Results {

  /** A value that may be absent. */
  datatype Option<+T> = None | Some(value: T)

  /** Either a computed value or the error that the JavaScript code would throw or report. */
  datatype Result<+T, +E> = Ok(value: T) | Err(error: E)

  /** Concatenation is associative; proved pointwise once, so that larger proofs need not
      rediscover it. */
  lemma ConcatAssoc<T>(a: seq<T>, b: seq<T>, c: seq<T>)
    ensures (a + b) + c == a + (b + c)
  {
    forall i | 0 <= i < |a| + |b| + |c| ensures ((a + b) + c)[i] == (a + (b + c))[i] {
    }
  }
}

=== FILE: SyncCommon.dfy ===
/**
 * What both generations of the sync method share: the abstract store operations a call
 * issues, the replies the store gives, the model or collection the call is about, the
 * completion callback `couchbase_callback`, and the write verbs (create, update, patch,
 * delete) plus the unknown-verb error, which are written identically in both.
 *
 * A call is modelled as a run against a sequence of replies: each issued operation takes
 * the next reply, and the run is pending when the replies run out.
 */
module SyncCommon {
  import opened Results
  import opened JsValues
  import opened Uri
  import opened KeyCodec
  import opened ErrorTranslator
  import opened Config
  import opened ResultNormalizer

  /** One setter called on a view query, with the option values it was given. */
  datatype ViewSetting =
    | Custom(custom: Json)
    | FullSet(fullSet: Json)
    | Group(group: Json)
    | GroupLevel(level: Json)
    | IdRange(idStart: Json, idEnd: Json)
    | IncludeDocs(includeDocs: Json)
    | Key(key: Json)
    | Keys(keys: Json)
    | Limit(limit: Json)
    | OnError(onError: Json)
    | Range(start: Json, end: Json, inclusiveEnd: Json)
    | Order(order: Json)
    | Reduce(reduce: Json)
    | Skip(skip: Json)
    | Stale(stale: Json)

  /** `ViewQuery.from(designDocument, viewName)` followed by the setters, in call order. */
  datatype ViewQuery = ViewQuery(designDocument: Json, viewName: Json, settings: seq<ViewSetting>)

  /** An operation issued to the store, or to a join hook. */
  datatype Op =
    | Get(key: string)
    | GetMulti(keys: Json)
    | Insert(key: string, doc: Json)
    | Replace(key: string, doc: Json)
    | Remove(key: string)
    | QueryView(view: ViewQuery)
    | QueryN1ql(statement: string, params: Option<Json>)
    | EnsureIndexes(indexes: Json)
    | ModelJoin(response: Json)
    | OptionJoin(hook: Json, response: Json)

  /** The `(err, result)` pair a callback receives; `error == None` is a success. */
  datatype Reply = Reply(error: Option<ErrorValue>, result: Json)

  /** How the returned promise settles: resolved, rejected with the reported error, the
      call threw synchronously, an exception escaped a store callback (nothing settles, the
      process sees an uncaught exception), or it still waits for the store. */
  datatype Outcome =
    | Resolved(response: Json)
    | Rejected(error: Reported)
    | Threw(thrown: ErrorValue)
    | Crashed(uncaught: ErrorValue)
    | Pending

  /** The operations a call issued, in order, and its outcome. */
  datatype Run = Run(ops: seq<Op>, outcome: Outcome)

  /** The member model class of a collection (`collection.model`): its URL root and id
      attribute. */
  datatype MemberClass = MemberClass(urlRoot: string, idAttribute: string)

  /** The model or collection handed to the sync method, reduced to what it reads.
      `urlMethod` is the source text of `url` when `url` is a function, and `None` when it
      is a string. `url` is that string, or what the method starts from: a collection's
      method answers it, a model's (Backbone's own `url`) appends the id to it as a base. */
  datatype Target = Target(
    isCollection: bool,
    kind: Json,
    url: string,
    urlMethod: Option<string>,
    idAttribute: string,
    attributes: seq<(string, Json)>,
    hasJoin: bool,
    designDocument: Json,
    viewName: Json,
    defaultView: Json,
    indexes: Json,
    member: Option<MemberClass>)

  /** `model.isNew()`: the id attribute is null or undefined. */
  predicate IsNew(t: Target) {
    Nullish(Lookup(t.attributes, t.idAttribute))
  }

  /** `model.set(model.idAttribute, id)`. */
  function AssignId(t: Target, id: string): (t': Target)
    ensures !IsNew(t')
    ensures Lookup(t'.attributes, t.idAttribute) == Str(id)
  {
    SetFieldLookup(t.attributes, t.idAttribute, Str(id), t.idAttribute);
    t.(attributes := SetField(t.attributes, t.idAttribute, Str(id)))
  }

  /** The URL a model reports: its base while it is new, otherwise the base, a `/` unless
      the base already ends with one, and the encoded id. */
  function ModelUrl(base: string, id: Json): (u: string)
    ensures Nullish(id) ==> u == base
    ensures !Nullish(id) ==>
              var suffix := Encode(ToJsString(id));
              |base| + |suffix| <= |u| && u[..|base|] == base && u[|u| - |suffix|..] == suffix
  {
    if Nullish(id) then base
    else
      var prefix := if |base| > 0 && base[|base| - 1] != '/' then base + "/" else base;
      var suffix := Encode(ToJsString(id));
      assert (prefix + suffix)[..|base|] == prefix[..|base|];
      prefix + suffix
  }

  const UrlRequired := ErrorValue(JsError("Error"), Undefined, "A \"url\" property or function must be specified")

  /** The URL of a fresh member model given one requested id: an object id is set as the
      member's attributes, anything else as its id attribute. A member class without a URL
      root cannot build a URL and throws. */
  function MemberUrl(m: MemberClass, id: Json): (r: Result<string, ErrorValue>)
    ensures r.Err? <==> m.urlRoot == ""
    ensures r.Ok? && (id.Obj? || id.Arr? || id.Fn?) ==> r.value == ModelUrl(m.urlRoot, Prop(id, m.idAttribute))
    ensures r.Ok? && Present(id) && !(id.Obj? || id.Arr? || id.Fn?) ==>
              r.value == (if m.urlRoot[|m.urlRoot| - 1] == '/' then m.urlRoot else m.urlRoot + "/") + Encode(ToJsString(id))
  {
    if m.urlRoot == "" then Err(UrlRequired)
    else Ok(ModelUrl(m.urlRoot, if id.Obj? || id.Arr? || id.Fn? then Prop(id, m.idAttribute) else id))
  }

  const UrlNotAFunction := ErrorValue(JsError("TypeError"), Undefined, "model.url is not a function")

  /** `model.url` read as a value: the function, or the string. */
  function UrlValue(t: Target): (v: Json)
    ensures t.urlMethod.None? <==> v == Str(t.url)
    ensures ToJsString(v) == if t.urlMethod.Some? then t.urlMethod.value else t.url
  {
    match t.urlMethod
    case Some(source) => Fn(source)
    case None => Str(t.url)
  }

  /** `model.url()`: a string `url` is not callable; a collection's method answers its
      URL, and a model's builds it from the base and the id, throwing when the base is
      empty. */
  function UrlCall(t: Target): (r: Result<string, ErrorValue>)
    ensures t.urlMethod.None? ==> r == Err(UrlNotAFunction)
    ensures t.urlMethod.Some? && t.isCollection ==> r == Ok(t.url)
    ensures t.urlMethod.Some? && !t.isCollection ==> (r.Err? <==> t.url == "")
    ensures t.urlMethod.Some? && !t.isCollection && r.Err? ==> r.error == UrlRequired
    ensures r.Ok? && !t.isCollection && IsNew(t) ==> r.value == t.url
    ensures r.Ok? && !t.isCollection && !IsNew(t) ==>
              var suffix := Encode(ToJsString(Lookup(t.attributes, t.idAttribute)));
              |t.url| + |suffix| <= |r.value| && r.value[..|t.url|] == t.url && r.value[|r.value| - |suffix|..] == suffix
  {
    if t.urlMethod.None? then Err(UrlNotAFunction)
    else if t.isCollection then Ok(t.url)
    else if t.url == "" then Err(UrlRequired)
    else Ok(ModelUrl(t.url, Lookup(t.attributes, t.idAttribute)))
  }

  const UriMalformedError := ErrorValue(JsError("URIError"), Undefined, "URI malformed")

  /** `_keyFormat(model.url())`: the key of the target's own URL, the error calling `url`
      throws, or the URIError decoding throws. */
  function TargetKey(s: Settings, t: Target): (r: Result<string, ErrorValue>)
    ensures UrlCall(t).Err? ==> r == Err(UrlCall(t).error)
    ensures UrlCall(t).Ok? ==> (r.Ok? <==> KeyFormat(s.sep, UrlCall(t).value).Ok?)
    ensures UrlCall(t).Ok? && r.Ok? ==> r.value == KeyFormat(s.sep, UrlCall(t).value).value
    ensures UrlCall(t).Ok? && r.Err? ==> r.error == UriMalformedError
  {
    match UrlCall(t)
    case Err(e) => Err(e)
    case Ok(url) =>
      match KeyFormat(s.sep, url)
      case Err(_) => Err(UriMalformedError)
      case Ok(key) => Ok(key)
  }

  /** Which shaping rules the callback applies. */
  datatype Shaping = OlderShaping | NewerShaping(reducedView: bool)

  function Shape(shaping: Shaping, options: Json, result: Json): Json {
    match shaping
    case OlderShaping => ShapeOlder(options, result)
    case NewerShaping(reducedView) => ShapeNewer(reducedView, options, result)
  }

  /** Issues a join hook and settles on its answer. */
  function AwaitJoin(op: Op, s: Settings, later: seq<Reply>): (run: Run)
    ensures run.ops == [op]
    ensures |later| == 0 <==> run.outcome == Pending
    ensures |later| > 0 && later[0].error.None? ==> run.outcome == Resolved(later[0].result)
    ensures |later| > 0 && later[0].error.Some? ==> run.outcome == Rejected(ReportError(s.httpError, later[0].error.value))
  {
    if |later| == 0 then Run([op], Pending)
    else
      match later[0].error
      case Some(e) => Run([op], Rejected(ReportError(s.httpError, e)))
      case None => Run([op], Resolved(later[0].result))
  }

  /** `couchbase_callback(err, result)`: an error is reported and nothing else happens; a
      result is shaped and then either handed to a join hook (the model's own `join` when
      `options.join === true`, or `options.join` when it is a function) or resolved. */
  function Callback(s: Settings, t: Target, options: Json, shaping: Shaping, reply: Reply, later: seq<Reply>): (run: Run)
    ensures reply.error.Some? ==> run == Run([], Rejected(ReportError(s.httpError, reply.error.value)))
    ensures reply.error.None? && !(Prop(options, "join") == Bool(true) && t.hasJoin) && !Prop(options, "join").Fn? ==>
              run == Run([], Resolved(Shape(shaping, options, reply.result)))
    ensures reply.error.None? && Prop(options, "join") == Bool(true) && t.hasJoin ==>
              run.ops == [ModelJoin(Shape(shaping, options, reply.result))]
    ensures reply.error.None? && Prop(options, "join").Fn? ==>
              run.ops == [OptionJoin(Prop(options, "join"), Shape(shaping, options, reply.result))]
    ensures |run.ops| <= 1
  {
    match reply.error
    case Some(e) => Run([], Rejected(ReportError(s.httpError, e)))
    case None =>
      var response := Shape(shaping, options, reply.result);
      var join := Prop(options, "join");
      if join == Bool(true) && t.hasJoin then AwaitJoin(ModelJoin(response), s, later)
      else if join.Fn? then AwaitJoin(OptionJoin(join, response), s, later)
      else Run([], Resolved(response))
  }

  /** Issues `op` and passes its reply to the callback. */
  function Issue(op: Op, s: Settings, t: Target, options: Json, shaping: Shaping, replies: seq<Reply>): (run: Run)
    ensures 1 <= |run.ops| <= 2 && run.ops[0] == op
    ensures |replies| == 0 ==> run == Run([op], Pending)
    ensures |replies| > 0 ==>
              var cb := Callback(s, t, options, shaping, replies[0], replies[1..]);
              run == Run([op] + cb.ops, cb.outcome)
  {
    if |replies| == 0 then Run([op], Pending)
    else
      var cb := Callback(s, t, options, shaping, replies[0], replies[1..]);
      Run([op] + cb.ops, cb.outcome)
  }

  /** Issues a write; a failed write goes to the callback with its error, a successful one
      is followed by a `get` of the same key whose reply goes to the callback. */
  function WriteThenGet(write: Op, key: string, s: Settings, t: Target, options: Json, shaping: Shaping,
                        replies: seq<Reply>): (run: Run)
    ensures 1 <= |run.ops| <= 3 && run.ops[0] == write
    ensures |replies| > 0 && replies[0].error.Some? ==>
              run == Run([write], Rejected(ReportError(s.httpError, replies[0].error.value)))
    ensures |replies| > 0 && replies[0].error.None? ==>
              |run.ops| >= 2 && run.ops[1] == Get(key) &&
              run.ops[1..] == Issue(Get(key), s, t, options, shaping, replies[1..]).ops &&
              run.outcome == Issue(Get(key), s, t, options, shaping, replies[1..]).outcome
  {
    if |replies| == 0 then Run([write], Pending)
    else if replies[0].error.Some? then
      var cb := Callback(s, t, options, shaping, replies[0], replies[1..]);
      Run([write] + cb.ops, cb.outcome)
    else
      var next := Issue(Get(key), s, t, options, shaping, replies[1..]);
      Run([write] + next.ops, next.outcome)
  }

  /** `create`: a new model first gets the fresh id, then its document is inserted under its
      key, and on success the same key is read back. */
  function Create(s: Settings, t: Target, options: Json, shaping: Shaping, freshId: string, replies: seq<Reply>): (run: Run)
    ensures |run.ops| <= 3
    ensures var t' := if IsNew(t) then AssignId(t, freshId) else t;
            (TargetKey(s, t').Err? <==> run.ops == []) &&
            (TargetKey(s, t').Err? ==> run.outcome == Threw(TargetKey(s, t').error)) &&
            (TargetKey(s, t').Ok? ==>
               var key := TargetKey(s, t').value;
               run.ops[0] == Insert(key, Obj(t'.attributes)) &&
               (|replies| > 0 && replies[0].error.Some? ==>
                  run == Run([run.ops[0]], Rejected(ReportError(s.httpError, replies[0].error.value)))) &&
               (|replies| > 0 && replies[0].error.None? ==> |run.ops| >= 2 && run.ops[1] == Get(key)))
  {
    var t' := if IsNew(t) then AssignId(t, freshId) else t;
    match TargetKey(s, t')
    case Err(e) => Run([], Threw(e))
    case Ok(key) => WriteThenGet(Insert(key, Obj(t'.attributes)), key, s, t', options, shaping, replies)
  }

  /** `update`: the document replaces the stored one, then the key is read back. */
  function Update(s: Settings, t: Target, options: Json, shaping: Shaping, replies: seq<Reply>): (run: Run)
    ensures |run.ops| <= 3
    ensures TargetKey(s, t).Err? <==> run.ops == []
    ensures TargetKey(s, t).Err? ==> run.outcome == Threw(TargetKey(s, t).error)
    ensures TargetKey(s, t).Ok? ==> run.ops[0] == Replace(TargetKey(s, t).value, Obj(t.attributes))
    ensures TargetKey(s, t).Ok? && |replies| > 0 && replies[0].error.Some? ==>
              run == Run([run.ops[0]], Rejected(ReportError(s.httpError, replies[0].error.value)))
    ensures TargetKey(s, t).Ok? && NoJoin(t, options) && |replies| >= 2 && replies[0].error.None? ==>
              run == Run([Replace(TargetKey(s, t).value, Obj(t.attributes)), Get(TargetKey(s, t).value)],
                         Settled(s, options, shaping, replies[1]))
  {
    match TargetKey(s, t)
    case Err(e) => Run([], Threw(e))
    case Ok(key) => WriteThenGet(Replace(key, Obj(t.attributes)), key, s, t, options, shaping, replies)
  }

  /** `patch`: read the stored document, copy the model's attributes onto it, replace it,
      and read it back. */
  function Patch(s: Settings, t: Target, options: Json, shaping: Shaping, replies: seq<Reply>): (run: Run)
    ensures TargetKey(s, t).Err? ==> run == Run([], Threw(TargetKey(s, t).error))
    ensures TargetKey(s, t).Ok? ==> 1 <= |run.ops| <= 4 && run.ops[0] == Get(TargetKey(s, t).value)
    ensures TargetKey(s, t).Ok? && |replies| > 0 && replies[0].error.Some? ==>
              run == Run([Get(TargetKey(s, t).value)], Rejected(ReportError(s.httpError, replies[0].error.value)))
    ensures TargetKey(s, t).Ok? && |replies| > 0 && replies[0].error.None? ==>
              var key := TargetKey(s, t).value;
              var merged := Extend(Prop(replies[0].result, "value"), t.attributes);
              run.ops[1..] == WriteThenGet(Replace(key, merged), key, s, t, options, shaping, replies[1..]).ops &&
              run.outcome == WriteThenGet(Replace(key, merged), key, s, t, options, shaping, replies[1..]).outcome
    ensures TargetKey(s, t).Ok? && NoJoin(t, options) && |replies| >= 3 &&
            replies[0].error.None? && replies[1].error.None? ==>
              var key := TargetKey(s, t).value;
              run == Run([Get(key), Replace(key, Extend(Prop(replies[0].result, "value"), t.attributes)), Get(key)],
                         Settled(s, options, shaping, replies[2]))
  {
    match TargetKey(s, t)
    case Err(e) => Run([], Threw(e))
    case Ok(key) =>
      if |replies| == 0 then Run([Get(key)], Pending)
      else if replies[0].error.Some? then
        var cb := Callback(s, t, options, shaping, replies[0], replies[1..]);
        Run([Get(key)] + cb.ops, cb.outcome)
      else
        var merged := Extend(Prop(replies[0].result, "value"), t.attributes);
        var next := WriteThenGet(Replace(key, merged), key, s, t, options, shaping, replies[1..]);
        Run([Get(key)] + next.ops, next.outcome)
  }

  /** `delete`: one `remove` of the key. */
  function Delete(s: Settings, t: Target, options: Json, shaping: Shaping, replies: seq<Reply>): (run: Run)
    ensures |run.ops| <= 2
    ensures TargetKey(s, t).Err? <==> run.ops == []
    ensures TargetKey(s, t).Err? ==> run.outcome == Threw(TargetKey(s, t).error)
    ensures TargetKey(s, t).Ok? ==> run.ops[0] == Remove(TargetKey(s, t).value)
    ensures TargetKey(s, t).Ok? && NoJoin(t, options) && |replies| >= 1 ==>
              run == Run([Remove(TargetKey(s, t).value)], Settled(s, options, shaping, replies[0]))
  {
    match TargetKey(s, t)
    case Err(e) => Run([], Threw(e))
    case Ok(key) => Issue(Remove(key), s, t, options, shaping, replies)
  }

  /** The error an unrecognised verb produces. */
  function UnknownMethodError(verb: string): (e: ErrorValue)
    ensures e.code == Num(500) && e.kind == PlainObject
    ensures |verb| <= |e.message| && e.message[..|verb|] == verb
  {
    ErrorValue(PlainObject, Num(500), verb + ": Wrong or empty method for Backbone-Couchbase-Sync")
  }

  /** An unrecognised verb goes straight to the callback with a synthetic error. */
  function Unknown(s: Settings, t: Target, options: Json, shaping: Shaping, verb: string): (run: Run)
    ensures run == Run([], Rejected(ReportError(s.httpError, UnknownMethodError(verb))))
  {
    Callback(s, t, options, shaping, Reply(Some(UnknownMethodError(verb)), Undefined), [])
  }

  /** `"create"` or a truthy `options.create`: the create branch, which comes first. */
  predicate CreateRequested(verb: string, options: Json) {
    verb == "create" || Truthy(Prop(options, "create"))
  }

  /** The verbs with a branch of their own. */
  predicate KnownMethod(verb: string) {
    verb in {"create", "update", "read", "patch", "delete"}
  }

  const IdsNotAList := ErrorValue(JsError("Error"), Undefined, "options.ids must be a String or an Array!")

  /** `options.ids`, with a single string id wrapped into a one-element list. */
  function WrappedIds(options: Json): (ids: Json)
    ensures Prop(options, "ids").Str? ==> ids == Arr([Prop(options, "ids")])
    ensures !Prop(options, "ids").Str? ==> ids == Prop(options, "ids")
  {
    var ids := Prop(options, "ids");
    if ids.Str? then Arr([ids]) else ids
  }

  function Strs(keys: seq<string>): (vs: seq<Json>)
    ensures |vs| == |keys|
    ensures forall i :: 0 <= i < |keys| ==> vs[i] == Str(keys[i])
  {
    if |keys| == 0 then [] else [Str(keys[0])] + Strs(keys[1..])
  }

  /** No join hook takes part in the call. */
  predicate NoJoin(t: Target, options: Json) {
    !(Prop(options, "join") == Bool(true) && t.hasJoin) && !Prop(options, "join").Fn?
  }

  /** How the callback settles on a reply when no join hook takes part. */
  function Settled(s: Settings, options: Json, shaping: Shaping, reply: Reply): Outcome {
    match reply.error
    case Some(e) => Rejected(ReportError(s.httpError, e))
    case None => Resolved(Shape(shaping, options, reply.result))
  }

  /** One error-free reply without a join settles the issued operation with the shaped
      result and issues nothing more. */
  lemma IssueAnswered(op: Op, s: Settings, t: Target, options: Json, shaping: Shaping, result: Json)
    requires NoJoin(t, options)
    ensures Issue(op, s, t, options, shaping, [Reply(None, result)]) == Run([op], Resolved(Shape(shaping, options, result)))
  {
    assert [Reply(None, result)][1..] == [];
  }

  /** A create that the store accepts inserts the document and reads the very same key
      back, and resolves with what that read returned. The inserted document carries the
      fresh id when the model was new, and the model's own attributes otherwise. */
  lemma CreateReadsBackSameKey(s: Settings, t: Target, options: Json, shaping: Shaping, freshId: string,
                               replies: seq<Reply>)
    requires NoJoin(t, options)
    requires |replies| >= 2 && replies[0].error.None?
    ensures var t' := if IsNew(t) then AssignId(t, freshId) else t;
            var run := Create(s, t, options, shaping, freshId, replies);
            TargetKey(s, t').Ok? ==>
              var key := TargetKey(s, t').value;
              run.ops == [Insert(key, Obj(t'.attributes)), Get(key)] &&
              run.outcome == Settled(s, options, shaping, replies[1])
    ensures IsNew(t) ==> Lookup(AssignId(t, freshId).attributes, t.idAttribute) == Str(freshId)
  {
    var t' := if IsNew(t) then AssignId(t, freshId) else t;
    if TargetKey(s, t').Ok? {
      var key := TargetKey(s, t').value;
      var later := replies[1..];
      assert later[0] == replies[1];
      var cb := Callback(s, t', options, shaping, later[0], later[1..]);
      assert cb == Run([], Settled(s, options, shaping, replies[1]));
      var w := WriteThenGet(Insert(key, Obj(t'.attributes)), key, s, t', options, shaping, replies);
      assert Create(s, t, options, shaping, freshId, replies) == w;
      assert Issue(Get(key), s, t', options, shaping, later) == Run([Get(key)], cb.outcome);
      assert w.ops == [w.ops[0]] + w.ops[1..];
    }
  }

  /** A patch copies the model's attributes onto the stored document: on every key the
      model binds its value wins, and every other key keeps the stored value. The merged
      document replaces the stored one under the same key. */
  lemma PatchMergesIntoStored(s: Settings, t: Target, options: Json, shaping: Shaping, replies: seq<Reply>,
                              stored: seq<(string, Json)>, k: string)
    requires TargetKey(s, t).Ok?
    requires UniqueKeys(t.attributes)
    requires |replies| >= 1 && replies[0].error.None? && Prop(replies[0].result, "value") == Obj(stored)
    ensures var run := Patch(s, t, options, shaping, replies);
            var key := TargetKey(s, t).value;
            |run.ops| >= 2 && run.ops[0] == Get(key) && run.ops[1].Replace? && run.ops[1].key == key &&
            run.ops[1].doc.Obj? &&
            Lookup(run.ops[1].doc.fields, k) == (if HasKey(t.attributes, k) then Lookup(t.attributes, k) else Lookup(stored, k))
  {
    AssignLookup(stored, t.attributes, k);
  }

  /** The run issued nothing (its key threw), or issued one operation and settled on `o`. */
  predicate StoppedAfterFirst(run: Run, o: Outcome) {
    run.ops == [] || (|run.ops| == 1 && run.outcome == o)
  }

  /** A write the store refuses is reported and nothing else is issued. */
  lemma RefusedWriteStops(s: Settings, t: Target, options: Json, shaping: Shaping, freshId: string, replies: seq<Reply>)
    requires |replies| >= 1 && replies[0].error.Some?
    ensures var e := Rejected(ReportError(s.httpError, replies[0].error.value));
            StoppedAfterFirst(Create(s, t, options, shaping, freshId, replies), e) &&
            StoppedAfterFirst(Update(s, t, options, shaping, replies), e) &&
            StoppedAfterFirst(Patch(s, t, options, shaping, replies), e) &&
            StoppedAfterFirst(Delete(s, t, options, shaping, replies), e)
  {
  }
}

=== FILE: SyncNewer.dfy ===
/**
 * The sync method of the newer generation (build/index.js). The write verbs are those of
 * the older generation; `read` routes, first match wins, to a multi-get of member keys
 * (collection with `ids`), a multi-get of raw keys (collection with `docIds`), a view
 * query (`type == "designDocument"`), an index check followed by a N1QL query
 * (`type == "N1ql"`), or a get of the model's own key.
 */
module SyncNewer {
  import opened Results
  import opened JsValues
  import opened KeyCodec
  import opened ErrorTranslator
  import opened Config
  import opened ResultNormalizer
  import opened SyncCommon
  import opened ViewQueries

  /** The key of one requested id: built through the collection's member class when it
      has one, otherwise from the collection URL, a `/` and the id (the URL is the same
      whether `url` is the string or a method answering it). */
  function MemberKey(s: Settings, t: Target, id: Json): (r: Result<string, ErrorValue>)
    ensures t.member.None? ==> (r.Ok? <==> KeyFormat(s.sep, t.url + "/" + ToJsString(id)).Ok?)
    ensures t.member.None? && r.Ok? ==> r.value == KeyFormat(s.sep, t.url + "/" + ToJsString(id)).value
    ensures t.member.Some? ==>
              (r.Ok? <==> MemberUrl(t.member.value, id).Ok? && KeyFormat(s.sep, MemberUrl(t.member.value, id).value).Ok?)
    ensures t.member.Some? && r.Ok? ==> r.value == KeyFormat(s.sep, MemberUrl(t.member.value, id).value).value
    ensures t.member.Some? && MemberUrl(t.member.value, id).Err? ==> r == Err(UrlRequired)
  {
    match t.member
    case Some(m) =>
      (match MemberUrl(m, id)
       case Err(e) => Err(e)
       case Ok(url) =>
         match KeyFormat(s.sep, url)
         case Err(_) => Err(UriMalformedError)
         case Ok(key) => Ok(key))
    case None =>
      match KeyFormat(s.sep, t.url + "/" + ToJsString(id))
      case Err(_) => Err(UriMalformedError)
      case Ok(key) => Ok(key)
  }

  /** `_.map(ids, ...)` over `MemberKey`: every key in order, or an error when some id has
      no key. */
  function MemberKeys(s: Settings, t: Target, ids: seq<Json>): (r: Result<seq<string>, ErrorValue>)
    ensures r.Ok? <==> forall i :: 0 <= i < |ids| ==> MemberKey(s, t, ids[i]).Ok?
    ensures r.Ok? ==> |r.value| == |ids| && forall i :: 0 <= i < |ids| ==> r.value[i] == MemberKey(s, t, ids[i]).value
    ensures r.Err? ==> exists i :: 0 <= i < |ids| && MemberKey(s, t, ids[i]) == Err(r.error)
  {
    if |ids| == 0 then Ok([])
    else
      match MemberKey(s, t, ids[0])
      case Err(e) => Err(e)
      case Ok(k) =>
        match MemberKeys(s, t, ids[1..])
        case Err(e) =>
          var i :| 0 <= i < |ids[1..]| && MemberKey(s, t, ids[1..][i]) == Err(e);
          assert ids[i + 1] == ids[1..][i];
          Err(e)
        case Ok(ks) => Ok([k] + ks)
  }

  /** Backbone's default member class for a collection, `Backbone.Model`: no URL root. */
  const DefaultMember := MemberClass("", "id")

  /** A collection keeps Backbone's default member class unless the application names
      another, so `model.model != null` holds and every id goes through a member URL; with
      the default class that URL throws, and the newer generation's ids read throws before
      asking the store, where the older one formats `url + "/" + id`. */
  lemma DefaultMemberIdsReadThrows(s: Settings, t: Target, options: Json, replies: seq<Reply>)
    requires t.isCollection && t.member == Some(DefaultMember) && !Truthy(Prop(options, "create"))
    requires Present(Prop(options, "ids")) && WrappedIds(options).Arr? && |WrappedIds(options).items| > 0
    ensures Sync(s, t, options, "read", "", replies) == Run([], Threw(UrlRequired))
  {
    var ids := WrappedIds(options).items;
    assert MemberKey(s, t, ids[0]).Err?;
    var keys := MemberKeys(s, t, ids);
    var i :| 0 <= i < |ids| && MemberKey(s, t, ids[i]) == Err(keys.error);
  }

  /** A collection without a member class formats its ids exactly as the older generation
      does. */
  lemma {:induction false} KeysAgreeWithoutMemberClass(s: Settings, t: Target, ids: seq<Json>)
    requires t.member.None?
    ensures MemberKeys(s, t, ids).Ok? <==> KeysFormat(s.sep, t.url, ids).Ok?
    ensures MemberKeys(s, t, ids).Ok? ==> MemberKeys(s, t, ids).value == KeysFormat(s.sep, t.url, ids).value
  {
    if |ids| > 0 {
      KeysAgreeWithoutMemberClass(s, t, ids[1..]);
    }
  }

  /** `params` when the option is given. */
  function Params(options: Json): Option<Json> {
    if Present(Prop(options, "params")) then Some(Prop(options, "params")) else None
  }

  /** A N1QL read: the index check runs first, and whatever it answers, its callback
      calls `model.url()` and sends the answer as the statement, with `params` when given.
      A `url` that is not a function throws inside that callback, where nothing catches
      it. */
  function N1qlRead(s: Settings, t: Target, options: Json, replies: seq<Reply>): (run: Run)
    ensures |run.ops| >= 1 && run.ops[0] == EnsureIndexes(Or(t.indexes, Arr([])))
    ensures |replies| == 0 <==> run == Run([EnsureIndexes(Or(t.indexes, Arr([])))], Pending)
    ensures |replies| >= 1 && UrlCall(t).Err? ==>
              run == Run([EnsureIndexes(Or(t.indexes, Arr([])))], Crashed(UrlCall(t).error))
    ensures |replies| >= 1 && UrlCall(t).Ok? ==>
              |run.ops| >= 2 && run.ops[1] == QueryN1ql(UrlCall(t).value, Params(options)) &&
              run.ops[1..] == Issue(run.ops[1], s, t, options, NewerShaping(false), replies[1..]).ops &&
              run.outcome == Issue(run.ops[1], s, t, options, NewerShaping(false), replies[1..]).outcome
    ensures |run.ops| <= 3
  {
    var check := EnsureIndexes(Or(t.indexes, Arr([])));
    if |replies| == 0 then Run([check], Pending)
    else
      match UrlCall(t)
      case Err(e) => Run([check], Crashed(e))
      case Ok(statement) =>
        var next := Issue(QueryN1ql(statement, Params(options)), s, t, options, NewerShaping(false), replies[1..]);
        Run([check] + next.ops, next.outcome)
  }

  /** The index check's answer is ignored: a failed check leads to the same query and the
      same outcome as a passed one. */
  lemma IndexCheckOutcomeIgnored(s: Settings, t: Target, options: Json, a: Reply, b: Reply, rest: seq<Reply>)
    ensures N1qlRead(s, t, options, [a] + rest) == N1qlRead(s, t, options, [b] + rest)
  {
    assert ([a] + rest)[1..] == rest;
    assert ([b] + rest)[1..] == rest;
  }

  /** `read`, first match wins. */
  function Read(s: Settings, t: Target, options: Json, replies: seq<Reply>): (run: Run)
    ensures |run.ops| <= 3
    ensures t.isCollection && Present(Prop(options, "ids")) && !WrappedIds(options).Arr? ==>
              run == Run([], Rejected(ReportError(s.httpError, IdsNotAList)))
    ensures t.isCollection && Present(Prop(options, "ids")) && WrappedIds(options).Arr? ==>
              var keys := MemberKeys(s, t, WrappedIds(options).items);
              (keys.Err? ==> run == Run([], Threw(keys.error))) &&
              (keys.Ok? ==> |run.ops| >= 1 && run.ops[0] == GetMulti(Arr(Strs(keys.value))))
    ensures t.isCollection && Nullish(Prop(options, "ids")) && Present(Prop(options, "docIds")) ==>
              run == Issue(GetMulti(Prop(options, "docIds")), s, t, options, NewerShaping(false), replies)
    ensures !(t.isCollection && (Present(Prop(options, "ids")) || Present(Prop(options, "docIds")))) ==>
              (t.kind == Str("designDocument") && NewerView(t, options).Ok? ==>
                 run == Issue(QueryView(NewerView(t, options).value), s, t, options, NewerShaping(ReducesView(t, options)), replies)) &&
              (t.kind == Str("designDocument") && NewerView(t, options).Err? ==>
                 run == Run([], Threw(NewerView(t, options).error))) &&
              (t.kind == Str("N1ql") ==> run == N1qlRead(s, t, options, replies)) &&
              (t.kind != Str("designDocument") && t.kind != Str("N1ql") && TargetKey(s, t).Ok? ==>
                 run == Issue(Get(TargetKey(s, t).value), s, t, options, NewerShaping(false), replies)) &&
              (t.kind != Str("designDocument") && t.kind != Str("N1ql") && TargetKey(s, t).Err? ==>
                 run == Run([], Threw(TargetKey(s, t).error)))
  {
    if t.isCollection && Present(Prop(options, "ids")) then
      var ids := WrappedIds(options);
      if !ids.Arr? then Run([], Rejected(ReportError(s.httpError, IdsNotAList)))
      else
        match MemberKeys(s, t, ids.items)
        case Err(e) => Run([], Threw(e))
        case Ok(keys) => Issue(GetMulti(Arr(Strs(keys))), s, t, options, NewerShaping(false), replies)
    else if t.isCollection && Present(Prop(options, "docIds")) then
      Issue(GetMulti(Prop(options, "docIds")), s, t, options, NewerShaping(false), replies)
    else if t.kind == Str("designDocument") then
      match NewerView(t, options)
      case Err(e) => Run([], Threw(e))
      case Ok(q) => Issue(QueryView(q), s, t, options, NewerShaping(ReducesView(t, options)), replies)
    else if t.kind == Str("N1ql") then N1qlRead(s, t, options, replies)
    else
      match TargetKey(s, t)
      case Err(e) => Run([], Threw(e))
      case Ok(key) => Issue(Get(key), s, t, options, NewerShaping(false), replies)
  }

  /** The sync method; the write verbs shape their answers as a plain, unreduced call. */
  function Sync(s: Settings, t: Target, options: Json, verb: string, freshId: string, replies: seq<Reply>): (run: Run)
    ensures |run.ops| <= 4
    ensures !CreateRequested(verb, options) && !KnownMethod(verb) ==>
              run == Run([], Rejected(ReportError(s.httpError, UnknownMethodError(verb))))
    ensures CreateRequested(verb, options) && |run.ops| > 0 ==> run.ops[0].Insert?
    ensures CreateRequested(verb, options) ==> run == Create(s, t, options, NewerShaping(false), freshId, replies)
    ensures !CreateRequested(verb, options) && verb == "update" ==> run == Update(s, t, options, NewerShaping(false), replies)
    ensures !CreateRequested(verb, options) && verb == "read" ==> run == Read(s, t, options, replies)
    ensures !CreateRequested(verb, options) && verb == "patch" ==> run == Patch(s, t, options, NewerShaping(false), replies)
    ensures !CreateRequested(verb, options) && verb == "delete" ==> run == Delete(s, t, options, NewerShaping(false), replies)
  {
    if CreateRequested(verb, options) then Create(s, t, options, NewerShaping(false), freshId, replies)
    else if verb == "update" then Update(s, t, options, NewerShaping(false), replies)
    else if verb == "read" then Read(s, t, options, replies)
    else if verb == "patch" then Patch(s, t, options, NewerShaping(false), replies)
    else if verb == "delete" then Delete(s, t, options, NewerShaping(false), replies)
    else Unknown(s, t, options, NewerShaping(false), verb)
  }

  /** What each verb sends first: a truthy `create` option turns any verb into a create,
      which inserts the model's document under its key (after a new model gets the fresh
      id); otherwise `update` replaces the document under the model's key, `patch` reads
      it, and `delete` removes it and settles on that one answer. When the key throws,
      none of them sends anything. */
  lemma VerbRouting(s: Settings, t: Target, options: Json, verb: string, freshId: string, replies: seq<Reply>)
    ensures Truthy(Prop(options, "create")) ==>
              Sync(s, t, options, verb, freshId, replies) == Sync(s, t, options, "create", freshId, replies)
    ensures var t' := if IsNew(t) then AssignId(t, freshId) else t;
            var run := Sync(s, t, options, "create", freshId, replies);
            TargetKey(s, t').Ok? ==> |run.ops| >= 1 && run.ops[0] == Insert(TargetKey(s, t').value, Obj(t'.attributes))
    ensures !Truthy(Prop(options, "create")) && TargetKey(s, t).Ok? ==>
              var key := TargetKey(s, t).value;
              |Sync(s, t, options, "update", freshId, replies).ops| >= 1 &&
              Sync(s, t, options, "update", freshId, replies).ops[0] == Replace(key, Obj(t.attributes)) &&
              |Sync(s, t, options, "patch", freshId, replies).ops| >= 1 &&
              Sync(s, t, options, "patch", freshId, replies).ops[0] == Get(key) &&
              |Sync(s, t, options, "delete", freshId, replies).ops| >= 1 &&
              Sync(s, t, options, "delete", freshId, replies).ops[0] == Remove(key)
    ensures !Truthy(Prop(options, "create")) && TargetKey(s, t).Ok? && NoJoin(t, options) && |replies| >= 1 ==>
              Sync(s, t, options, "delete", freshId, replies) ==
                Run([Remove(TargetKey(s, t).value)], Settled(s, options, NewerShaping(false), replies[0]))
    ensures !Truthy(Prop(options, "create")) && TargetKey(s, t).Err? ==>
              Sync(s, t, options, "update", freshId, replies) == Run([], Threw(TargetKey(s, t).error)) &&
              Sync(s, t, options, "patch", freshId, replies) == Run([], Threw(TargetKey(s, t).error)) &&
              Sync(s, t, options, "delete", freshId, replies) == Run([], Threw(TargetKey(s, t).error))
  {
  }

  /** Every newer-generation call settles as if the multi-get test at build/index.js:226
      read `options.docIds`. As written it reads an undeclared `option`, so even a delete
      throws in the callback once the store answers: any object answer resolves the delete
      with its `value` as intended, where the callback as written throws a ReferenceError
      on it. */
  lemma DeleteAnswerThrowsAsWritten(s: Settings, t: Target, answer: seq<(string, Json)>)
    requires TargetKey(s, t).Ok? && NoJoin(t, Obj([]))
    ensures Sync(s, t, Obj([]), "delete", "", [Reply(None, Obj(answer))]) ==
              Run([Remove(TargetKey(s, t).value)], Resolved(Prop(Obj(answer), "value")))
    ensures ShapeNewerAsWritten(false, Obj([]), Obj(answer)) == Err(OptionNotDefined)
  {
    assert !CreateRequested("delete", Obj([]));
  }

  /** `ids` win over `docIds`: when both are given, the member keys are fetched and the raw
      keys are ignored. */
  lemma IdsBeforeDocIds(s: Settings, t: Target, options: Json, replies: seq<Reply>)
    requires t.isCollection && !Truthy(Prop(options, "create"))
    requires Present(Prop(options, "ids")) && Present(Prop(options, "docIds"))
    requires WrappedIds(options).Arr? && MemberKeys(s, t, WrappedIds(options).items).Ok?
    ensures var run := Sync(s, t, options, "read", "", replies);
            |run.ops| >= 1 && run.ops[0] == GetMulti(Arr(Strs(MemberKeys(s, t, WrappedIds(options).items).value))) &&
            forall i :: 0 <= i < |run.ops| ==> run.ops[i] != GetMulti(Prop(options, "docIds")) ||
                                               Prop(options, "docIds") == Arr(Strs(MemberKeys(s, t, WrappedIds(options).items).value))
  {
  }

  /** A `url` that is a string cannot be called: every verb that formats the target's own
      key throws before the store is asked, and a N1QL read crashes once the index check
      has answered. */
  lemma StringUrlIsNotCallable(s: Settings, t: Target, options: Json, replies: seq<Reply>)
    requires t.urlMethod.None?
    ensures TargetKey(s, t) == Err(UrlNotAFunction)
    ensures Update(s, t, options, NewerShaping(false), replies) == Run([], Threw(UrlNotAFunction))
    ensures Delete(s, t, options, NewerShaping(false), replies) == Run([], Threw(UrlNotAFunction))
    ensures |replies| >= 1 ==>
              N1qlRead(s, t, options, replies) == Run([EnsureIndexes(Or(t.indexes, Arr([])))], Crashed(UrlNotAFunction))
  {
  }

  /** A single model read through its view with no `reduce` option is reduced: it answers
      the first row's value. A collection read the same way answers every row's value. A
      target whose `url` is a function and which lacks a design document or view name of
      its own throws before querying, since a function has no `split`. */
  lemma ViewReadReducesModelsOnly(s: Settings, t: Target, options: Json, rows: seq<Json>)
    requires t.kind == Str("designDocument") && NoJoin(t, options) && !Truthy(Prop(options, "create"))
    requires Nullish(Prop(options, "ids")) && Nullish(Prop(options, "docIds")) && Nullish(Prop(options, "reduce"))
    requires !Truthy(Prop(options, "group"))
    ensures var run := Sync(s, t, options, "read", "", [Reply(None, Arr(rows))]);
            NewerView(t, options).Ok? ==>
              run.ops == [QueryView(NewerView(t, options).value)] &&
              run.outcome == Resolved(if t.isCollection then Arr(RowValues(rows)) else FirstValue(rows))
    ensures var run := Sync(s, t, options, "read", "", [Reply(None, Arr(rows))]);
            t.urlMethod.Some? && !(Truthy(t.designDocument) && Truthy(t.viewName)) ==>
              run == Run([], Threw(SplitNotAFunction))
  {
    var replies := [Reply(None, Arr(rows))];
    assert Sync(s, t, options, "read", "", replies) == Read(s, t, options, replies);
    if NewerView(t, options).Ok? {
      ViewReadAnswered(s, t, options, rows);
    }
  }

  /** The answered branch of the lemma above: one query, whose rows are settled as a
      reduced view for a model and as a plain one for a collection. */
  lemma ViewReadAnswered(s: Settings, t: Target, options: Json, rows: seq<Json>)
    requires t.kind == Str("designDocument") && NoJoin(t, options)
    requires Nullish(Prop(options, "ids")) && Nullish(Prop(options, "docIds")) && Nullish(Prop(options, "reduce"))
    requires !Truthy(Prop(options, "group")) && NewerView(t, options).Ok?
    ensures var run := Read(s, t, options, [Reply(None, Arr(rows))]);
            run.ops == [QueryView(NewerView(t, options).value)] &&
            run.outcome == Resolved(if t.isCollection then Arr(RowValues(rows)) else FirstValue(rows))
  {
    var q := QueryView(NewerView(t, options).value);
    var shaping := NewerShaping(!t.isCollection);
    ViewReadIssues(s, t, options, [Reply(None, Arr(rows))]);
    IssueAnswered(q, s, t, options, shaping, Arr(rows));
    ViewRowsShaped(t, options, rows);
  }

  lemma ViewReadIssues(s: Settings, t: Target, options: Json, replies: seq<Reply>)
    requires t.kind == Str("designDocument") && Nullish(Prop(options, "reduce"))
    requires Nullish(Prop(options, "ids")) && Nullish(Prop(options, "docIds")) && NewerView(t, options).Ok?
    ensures Read(s, t, options, replies) ==
              Issue(QueryView(NewerView(t, options).value), s, t, options, NewerShaping(!t.isCollection), replies)
  {
    assert ReducesView(t, options) == !t.isCollection;
  }

  lemma ViewRowsShaped(t: Target, options: Json, rows: seq<Json>)
    requires Nullish(Prop(options, "reduce")) && !Truthy(Prop(options, "group"))
    ensures Shape(NewerShaping(!t.isCollection), options, Arr(rows)) ==
              if t.isCollection then Arr(RowValues(rows)) else FirstValue(rows)
  {
  }

  /** A collection view read given `skip` throws as written, before the store is asked;
      as evidently intended the `skip` value reaches the query along with the other set
      options. */
  lemma PagedViewRead(s: Settings, t: Target, options: Json, replies: seq<Reply>, opt: ViewOption)
    requires t.kind == Str("designDocument") && t.isCollection && !Truthy(Prop(options, "create"))
    requires Nullish(Prop(options, "ids")) && Nullish(Prop(options, "docIds"))
    requires Present(Prop(options, "skip"))
    ensures NewerViewAsWritten(t, options).Err?
    ensures NewerView(t, options).Ok? ==> NewerViewAsWritten(t, options) == Err(SkipNotDefined)
    ensures var run := Sync(s, t, options, "read", "", replies);
            NewerView(t, options).Ok? ==>
              |run.ops| >= 1 && run.ops[0] == QueryView(NewerView(t, options).value) &&
              Skip(Prop(options, "skip")) in run.ops[0].view.settings &&
              (opt != ReduceOption && Present(Prop(options, Name(opt))) ==> Setter(opt, options) in run.ops[0].view.settings)
  {
    NewerViewSettings(t, options, SkipOption);
    NewerViewSettings(t, options, opt);
  }
}

=== FILE: SyncOlder.dfy ===
/**
 * The sync method of the older generation (index.js): verb dispatch, and the read routing
 * that tells a collection fetched by ids from a collection fetched through its view and
 * from a single model.
 */
module SyncOlder {
  import opened Results
  import opened JsValues
  import opened Uri
  import opened KeyCodec
  import opened ErrorTranslator
  import opened Config
  import opened ResultNormalizer
  import opened SyncCommon
  import opened ViewQueries

  /** `read`: a collection given `ids` multi-gets the keys of `url + "/" + id` (with `url`
      converted to a string as it is, so a function contributes its source text), a
      collection without them queries its view, and a model gets its own key. */
  function Read(s: Settings, t: Target, options: Json, replies: seq<Reply>): (run: Run)
    ensures |run.ops| <= 3
    ensures t.isCollection && Nullish(Prop(options, "ids")) ==>
              run == Issue(QueryView(OlderView(t, options)), s, t, options, OlderShaping, replies)
    ensures t.isCollection && Present(Prop(options, "ids")) && !WrappedIds(options).Arr? ==>
              run == Run([], Rejected(ReportError(s.httpError, IdsNotAList)))
    ensures t.isCollection && Present(Prop(options, "ids")) && WrappedIds(options).Arr? ==>
              var keys := KeysFormat(s.sep, ToJsString(UrlValue(t)), WrappedIds(options).items);
              (keys.Err? ==> run == Run([], Threw(UriMalformedError))) &&
              (keys.Ok? ==> run == Issue(GetMulti(Arr(Strs(keys.value))), s, t, options, OlderShaping, replies))
    ensures !t.isCollection && TargetKey(s, t).Ok? ==>
              run == Issue(Get(TargetKey(s, t).value), s, t, options, OlderShaping, replies)
    ensures !t.isCollection && TargetKey(s, t).Err? ==> run == Run([], Threw(TargetKey(s, t).error))
  {
    if t.isCollection then
      if Present(Prop(options, "ids")) then
        var ids := WrappedIds(options);
        if !ids.Arr? then Run([], Rejected(ReportError(s.httpError, IdsNotAList)))
        else
          match KeysFormat(s.sep, ToJsString(UrlValue(t)), ids.items)
          case Err(_) => Run([], Threw(UriMalformedError))
          case Ok(keys) => Issue(GetMulti(Arr(Strs(keys))), s, t, options, OlderShaping, replies)
      else Issue(QueryView(OlderView(t, options)), s, t, options, OlderShaping, replies)
    else
      match TargetKey(s, t)
      case Err(e) => Run([], Threw(e))
      case Ok(key) => Issue(Get(key), s, t, options, OlderShaping, replies)
  }

  /** The sync method: `create` (or any verb with a truthy `options.create`), `update`,
      `read`, `patch` and `delete`; any other verb is reported without touching the store.
      No call issues more than four operations. */
  function Sync(s: Settings, t: Target, options: Json, verb: string, freshId: string, replies: seq<Reply>): (run: Run)
    ensures |run.ops| <= 4
    ensures !CreateRequested(verb, options) && !KnownMethod(verb) ==>
              run == Run([], Rejected(ReportError(s.httpError, UnknownMethodError(verb))))
    ensures CreateRequested(verb, options) && |run.ops| > 0 ==> run.ops[0].Insert?
    ensures CreateRequested(verb, options) ==> run == Create(s, t, options, OlderShaping, freshId, replies)
    ensures !CreateRequested(verb, options) && verb == "update" ==> run == Update(s, t, options, OlderShaping, replies)
    ensures !CreateRequested(verb, options) && verb == "read" ==> run == Read(s, t, options, replies)
    ensures !CreateRequested(verb, options) && verb == "patch" ==> run == Patch(s, t, options, OlderShaping, replies)
    ensures !CreateRequested(verb, options) && verb == "delete" ==> run == Delete(s, t, options, OlderShaping, replies)
  {
    if CreateRequested(verb, options) then Create(s, t, options, OlderShaping, freshId, replies)
    else if verb == "update" then Update(s, t, options, OlderShaping, replies)
    else if verb == "read" then Read(s, t, options, replies)
    else if verb == "patch" then Patch(s, t, options, OlderShaping, replies)
    else if verb == "delete" then Delete(s, t, options, OlderShaping, replies)
    else Unknown(s, t, options, OlderShaping, verb)
  }

  /** What each verb sends first: a truthy `create` option turns any verb into a create,
      which inserts the model's document under its key (after a new model gets the fresh
      id); otherwise `update` replaces the document under the model's key, `patch` reads
      it, and `delete` removes it and settles on that one answer. When the key throws,
      none of them sends anything. */
  lemma VerbRouting(s: Settings, t: Target, options: Json, verb: string, freshId: string, replies: seq<Reply>)
    ensures Truthy(Prop(options, "create")) ==>
              Sync(s, t, options, verb, freshId, replies) == Sync(s, t, options, "create", freshId, replies)
    ensures var t' := if IsNew(t) then AssignId(t, freshId) else t;
            var run := Sync(s, t, options, "create", freshId, replies);
            TargetKey(s, t').Ok? ==> |run.ops| >= 1 && run.ops[0] == Insert(TargetKey(s, t').value, Obj(t'.attributes))
    ensures !Truthy(Prop(options, "create")) && TargetKey(s, t).Ok? ==>
              var key := TargetKey(s, t).value;
              |Sync(s, t, options, "update", freshId, replies).ops| >= 1 &&
              Sync(s, t, options, "update", freshId, replies).ops[0] == Replace(key, Obj(t.attributes)) &&
              |Sync(s, t, options, "patch", freshId, replies).ops| >= 1 &&
              Sync(s, t, options, "patch", freshId, replies).ops[0] == Get(key) &&
              |Sync(s, t, options, "delete", freshId, replies).ops| >= 1 &&
              Sync(s, t, options, "delete", freshId, replies).ops[0] == Remove(key)
    ensures !Truthy(Prop(options, "create")) && TargetKey(s, t).Ok? && NoJoin(t, options) && |replies| >= 1 ==>
              Sync(s, t, options, "delete", freshId, replies) ==
                Run([Remove(TargetKey(s, t).value)], Settled(s, options, OlderShaping, replies[0]))
    ensures !Truthy(Prop(options, "create")) && TargetKey(s, t).Err? ==>
              Sync(s, t, options, "update", freshId, replies) == Run([], Threw(TargetKey(s, t).error)) &&
              Sync(s, t, options, "patch", freshId, replies) == Run([], Threw(TargetKey(s, t).error)) &&
              Sync(s, t, options, "delete", freshId, replies) == Run([], Threw(TargetKey(s, t).error))
  {
  }

  /** A collection read by ids asks for one key per id, in order, each formatted from the
      collection's string `url` and the id, and answers with the documents' values in the
      order `for .. in` visits the answer's keys. */
  lemma IdsReadGetsEachKey(s: Settings, t: Target, options: Json, replies: seq<Reply>)
    requires t.isCollection && t.urlMethod.None? && !Truthy(Prop(options, "create"))
    requires Present(Prop(options, "ids")) && WrappedIds(options).Arr?
    requires KeysFormat(s.sep, t.url, WrappedIds(options).items).Ok?
    ensures var ids := WrappedIds(options).items;
            var run := Sync(s, t, options, "read", "", replies);
            |run.ops| >= 1 && run.ops[0].GetMulti? && run.ops[0].keys.Arr? &&
            |run.ops[0].keys.items| == |ids| &&
            forall i :: 0 <= i < |ids| ==>
              run.ops[0].keys.items[i] == Str(KeyFormat(s.sep, t.url + "/" + ToJsString(ids[i])).value)
    ensures NoJoin(t, options) && |replies| >= 1 && replies[0].error.None? && replies[0].result.Obj? ==>
              Sync(s, t, options, "read", "", replies).outcome == Resolved(Arr(FieldValues(replies[0].result.fields)))
  {
  }

  /** `ids` that are neither a string nor a list are refused before the store is asked. */
  lemma IdsMustBeAList(s: Settings, t: Target, options: Json, replies: seq<Reply>)
    requires t.isCollection && !Truthy(Prop(options, "create"))
    requires Present(Prop(options, "ids")) && !Prop(options, "ids").Str? && !Prop(options, "ids").Arr?
    ensures Sync(s, t, options, "read", "", replies) == Run([], Rejected(ReportError(s.httpError, IdsNotAList)))
    ensures s.httpError ==>
              Sync(s, t, options, "read", "", replies).outcome == Rejected(Http(500, Raw(IdsNotAList)))
  {
  }

  /** A stand-in for the source text of Backbone's own `url` method; only its being a
      function matters here. */
  const ModelUrlMethod := "function() { return this.urlRoot + '/' + this.id; }"

  /** The todo model of the example below: new, under `/todos`, id attribute `id`. */
  const Todo := Target(false, Undefined, "/todos", Some(ModelUrlMethod), "id", [("title", Str("milk"))], false,
                       Undefined, Undefined, Undefined, Undefined, None)

  /** A model with a string id keeps its URL as `base/id`, the id percent-encoded. */
  lemma UrlOfStringId(t: Target, id: string)
    requires !t.isCollection && t.urlMethod.Some? && |t.url| > 0 && t.url[|t.url| - 1] != '/'
    requires Lookup(t.attributes, t.idAttribute) == Str(id)
    ensures UrlCall(t) == Ok(t.url + "/" + Encode(id))
  {
  }

  /** An id of unreserved characters has neither a slash nor a percent sign. */
  lemma UnreservedId(id: string)
    requires forall i :: 0 <= i < |id| ==> IsUnreserved(id[i])
    ensures '/' !in id && '%' !in id
  {
    forall i | 0 <= i < |id| ensures id[i] != '/' && id[i] != '%' {
      assert IsUnreserved(id[i]);
    }
  }

  /** Once it has an id of unreserved characters, the todo's URL is `/todos/` and the id. */
  lemma TodoUrl(id: string)
    requires |id| > 0
    requires forall i :: 0 <= i < |id| ==> IsUnreserved(id[i])
    ensures UrlCall(AssignId(Todo, id)) == Ok("/" + Join(["todos", id], "/"))
  {
    var t' := AssignId(Todo, id);
    EncodeUnreserved(id);
    UrlOfStringId(t', id);
    var segs := ["todos", id];
    assert segs[1..] == [id];
    assert Join(segs, "/") == "todos" + "/" + id;
    assert t'.url == "/todos";
    assert "/" + Join(segs, "/") == t'.url + "/" + id;
  }

  /** Once it has an id of unreserved characters, such as `42`, the todo's URL is
      `/todos/42` and its key is `todos`, the separator and the id, as in `todos::42`. */
  lemma TodoKey(sep: string, id: string)
    requires '$' !in sep && |id| > 0
    requires forall i :: 0 <= i < |id| ==> IsUnreserved(id[i])
    ensures TargetKey(Settings(Some(sep), true), AssignId(Todo, id)) == Ok("todos" + sep + id)
  {
    var segs := ["todos", id];
    TodoUrl(id);
    UnreservedId(id);
    assert "todos"[0] == 't';
    KeyOfSegments(segs, sep);
    assert segs[1..] == [id];
    assert Join(segs, sep) == "todos" + sep + id;
  }

  /** Setting the id of the todo appends it after the title. */
  lemma TodoAttributes(id: string)
    ensures AssignId(Todo, id).attributes == [("title", Str("milk")), ("id", Str(id))]
  {
    assert "title" != "id" by { assert "title"[0] != "id"[0]; }
    assert SetField([], "id", Str(id)) == [("id", Str(id))];
    var attrs := Todo.attributes;
    assert attrs[0].0 != Todo.idAttribute && attrs[1..] == [];
    assert SetField(attrs, "id", Str(id)) == [attrs[0]] + SetField(attrs[1..], "id", Str(id));
  }

  /** Creating the new todo stores it under `todos`, the separator and its fresh id
      (`todos::42` with the default separator), reads that key back, and resolves with the
      stored document. */
  lemma CreateTodoExample(sep: string, id: string, written: Json)
    requires '$' !in sep && |id| > 0
    requires forall i :: 0 <= i < |id| ==> IsUnreserved(id[i])
    ensures var doc := Obj([("title", Str("milk")), ("id", Str(id))]);
            var replies := [Reply(None, written), Reply(None, Obj([("value", doc)]))];
            Sync(Settings(Some(sep), true), Todo, Obj([]), "create", id, replies) ==
              Run([Insert("todos" + sep + id, doc), Get("todos" + sep + id)], Resolved(doc))
  {
    var s := Settings(Some(sep), true);
    var doc := Obj([("title", Str("milk")), ("id", Str(id))]);
    var replies := [Reply(None, written), Reply(None, Obj([("value", doc)]))];
    assert IsNew(Todo);
    assert Sync(s, Todo, Obj([]), "create", id, replies) == Create(s, Todo, Obj([]), OlderShaping, id, replies);
    TodoAttributes(id);
    TodoKey(sep, id);
    CreateReadsBackSameKey(s, Todo, Obj([]), OlderShaping, id, replies);
    StoredValueSettles(s, doc);
  }

  /** A read of one stored document resolves with its `value`. */
  lemma StoredValueSettles(s: Settings, doc: Json)
    ensures Settled(s, Obj([]), OlderShaping, Reply(None, Obj([("value", doc)]))) == Resolved(doc)
  {
  }
}

=== FILE: Uri.dfy ===
/**
 * Percent-decoding as `decodeURIComponent` performs it, and the matching encoder
 * `encodeURIComponent` that produces the paths the key codec later decodes.
 * A string is a sequence of Unicode scalar values; an escape `%XX` names one UTF-8 byte.
 */
module Uri {
  import opened Results

  /** The single failure of `decodeURIComponent`: it throws a URIError on a malformed escape
      or on bytes that are not the UTF-8 encoding of a scalar value. */
  datatype UriError = UriMalformed

  /** One UTF-8 byte. */
  type Byte = b: int | 0 <= b < 256

  predicate IsHexDigit(c: char) {
    '0' <= c <= '9' || 'a' <= c <= 'f' || 'A' <= c <= 'F'
  }

  function HexValue(c: char): (v: nat)
    requires IsHexDigit(c)
    ensures v < 16
  {
    if '0' <= c <= '9' then c as int - '0' as int
    else if 'a' <= c <= 'f' then c as int - 'a' as int + 10
    else c as int - 'A' as int + 10
  }

  /** The upper-case hex digit `encodeURIComponent` writes for a nibble. */
  function HexDigit(v: nat): (c: char)
    requires v < 16
    ensures IsHexDigit(c) && HexValue(c) == v
  {
    if v < 10 then ('0' as int + v) as char else ('A' as int + v - 10) as char
  }

  /** The byte written by the two hex digits that follow a `%`. */
  function ByteOf(hi: char, lo: char): Byte
    requires IsHexDigit(hi) && IsHexDigit(lo)
  {
    HexValue(hi) * 16 + HexValue(lo)
  }

  /** How many bytes the UTF-8 sequence opened by `b` has: 0 when `b` cannot open one
      (a continuation byte, or five or more leading one bits). */
  function SequenceLength(b: Byte): nat {
    if b < 0x80 then 1
    else if b < 0xC0 then 0
    else if b < 0xE0 then 2
    else if b < 0xF0 then 3
    else if b < 0xF8 then 4
    else 0
  }

  predicate IsContinuation(b: Byte) {
    0x80 <= b < 0xC0
  }

  predicate IsScalar(v: int) {
    0 <= v < 0xD800 || 0xE000 <= v < 0x11_0000
  }

  /** The character a complete multi-byte sequence spells, or None when the sequence is
      overlong, names a surrogate, or lies beyond U+10FFFF. */
  function DecodeSequence(bytes: seq<Byte>): (r: Option<char>)
    requires 2 <= |bytes| <= 4 && SequenceLength(bytes[0]) == |bytes|
    requires forall i :: 1 <= i < |bytes| ==> IsContinuation(bytes[i])
    ensures r.Some? ==> 0x80 <= r.value as int
  {
    var v: int :=
      if |bytes| == 2 then (bytes[0] as int - 0xC0) * 64 + (bytes[1] as int - 0x80)
      else if |bytes| == 3 then (bytes[0] as int - 0xE0) * 4096 + (bytes[1] as int - 0x80) * 64 + (bytes[2] as int - 0x80)
      else (bytes[0] as int - 0xF0) * 262144 + (bytes[1] as int - 0x80) * 4096 + (bytes[2] as int - 0x80) * 64 + (bytes[3] as int - 0x80);
    var least := if |bytes| == 2 then 0x80 else if |bytes| == 3 then 0x800 else 0x1_0000;
    if least <= v && IsScalar(v) then Some(v as char) else None
  }

  /** Reads `count` escapes from the front of `s`, each of which must name a continuation
      byte. */
  function ReadContinuations(s: string, count: nat): (r: Option<seq<Byte>>)
    requires |s| >= 3 * count
    ensures r.Some? ==> |r.value| == count
    ensures r.Some? ==> forall i :: 0 <= i < count ==> IsContinuation(r.value[i])
    decreases count
  {
    if count == 0 then Some([])
    else if s[0] == '%' && IsHexDigit(s[1]) && IsHexDigit(s[2]) && IsContinuation(ByteOf(s[1], s[2])) then
      match ReadContinuations(s[3..], count - 1)
      case None => None
      case Some(rest) => Some([ByteOf(s[1], s[2])] + rest)
    else None
  }

  function Prepend(p: string, r: Result<string, UriError>): Result<string, UriError> {
    match r
    case Ok(t) => Ok(p + t)
    case Err(e) => Err(e)
  }

  /** `decodeURIComponent(s)`. */
  function Decode(s: string): Result<string, UriError>
    decreases |s|
  {
    if |s| == 0 then Ok([])
    else if s[0] != '%' then Prepend([s[0]], Decode(s[1..]))
    else if |s| < 3 || !IsHexDigit(s[1]) || !IsHexDigit(s[2]) then Err(UriMalformed)
    else
      var b := ByteOf(s[1], s[2]);
      var n := SequenceLength(b);
      if n == 0 then Err(UriMalformed)
      else if n == 1 then Prepend([b as char], Decode(s[3..]))
      else if |s| < 3 * n then Err(UriMalformed)
      else
        match ReadContinuations(s[3..], n - 1)
        case None => Err(UriMalformed)
        case Some(tail) =>
          match DecodeSequence([b] + tail)
          case None => Err(UriMalformed)
          case Some(c) => Prepend([c], Decode(s[3 * n..]))
  }

  /** The characters `encodeURIComponent` leaves as they are. */
  predicate IsUnreserved(c: char) {
    'A' <= c <= 'Z' || 'a' <= c <= 'z' || '0' <= c <= '9' || c in "-_.!~*'()"
  }

  /** The UTF-8 bytes of a scalar value. */
  function Utf8(c: char): (bytes: seq<Byte>)
    ensures 1 <= |bytes| <= 4
    ensures SequenceLength(bytes[0]) == |bytes|
    ensures forall i :: 1 <= i < |bytes| ==> IsContinuation(bytes[i])
  {
    var v := c as int;
    if v < 0x80 then [v]
    else if v < 0x800 then [0xC0 + v / 64, 0x80 + v % 64]
    else if v < 0x1_0000 then [0xE0 + v / 4096, 0x80 + (v / 64) % 64, 0x80 + v % 64]
    else [0xF0 + v / 262144, 0x80 + (v / 4096) % 64, 0x80 + (v / 64) % 64, 0x80 + v % 64]
  }

  function EscapeBytes(bytes: seq<Byte>): (s: string)
    ensures |s| == 3 * |bytes|
  {
    if |bytes| == 0 then []
    else ['%', HexDigit(bytes[0] / 16), HexDigit(bytes[0] % 16)] + EscapeBytes(bytes[1..])
  }

  function EncodeChar(c: char): string {
    if IsUnreserved(c) then [c]
    else EscapeBytes(Utf8(c))
  }

  /** `encodeURIComponent(s)`. */
  function Encode(s: string): string {
    if |s| == 0 then [] else EncodeChar(s[0]) + Encode(s[1..])
  }

  /** Every UTF-8 sequence the encoder writes decodes back to its character. */
  lemma Utf8Decodes(c: char)
    ensures |Utf8(c)| == 1 ==> Utf8(c)[0] == c as int
    ensures |Utf8(c)| >= 2 ==> DecodeSequence(Utf8(c)) == Some(c)
  {
    var v := c as int;
    if 0x800 <= v < 0x1_0000 {
      assert (v / 64) / 64 == v / 4096;
      assert v == (v / 4096) * 4096 + ((v / 64) % 64) * 64 + v % 64;
    } else if 0x1_0000 <= v {
      assert (v / 64) / 64 == v / 4096;
      assert (v / 4096) / 64 == v / 262144;
      assert v == (v / 262144) * 262144 + ((v / 4096) % 64) * 4096 + ((v / 64) % 64) * 64 + v % 64;
    }
  }

  /** The escapes of a run of continuation bytes read back as those bytes. */
  lemma {:induction false} ReadEscapedContinuations(bytes: seq<Byte>, rest: string)
    requires forall i :: 0 <= i < |bytes| ==> IsContinuation(bytes[i])
    ensures ReadContinuations(EscapeBytes(bytes) + rest, |bytes|) == Some(bytes)
  {
    if |bytes| > 0 {
      var s := EscapeBytes(bytes) + rest;
      assert s[3..] == EscapeBytes(bytes[1..]) + rest;
      assert ByteOf(s[1], s[2]) == bytes[0];
      ReadEscapedContinuations(bytes[1..], rest);
      assert [bytes[0]] + bytes[1..] == bytes;
    }
  }

  /** The first escape the encoder writes reads back as the first byte. */
  lemma EscapeHead(bytes: seq<Byte>, rest: string)
    requires |bytes| > 0
    ensures var s := EscapeBytes(bytes) + rest;
            s[0] == '%' && IsHexDigit(s[1]) && IsHexDigit(s[2]) && ByteOf(s[1], s[2]) == bytes[0] &&
            s[3..] == EscapeBytes(bytes[1..]) + rest
  {
    var b := bytes[0];
    var hi, lo := HexDigit(b / 16), HexDigit(b % 16);
    HexPair(b);
    EscapeCons(bytes);
    var pre, tail := ['%', hi, lo], EscapeBytes(bytes[1..]);
    ConcatAssoc(pre, tail, rest);
    EscapeLayout(pre, tail + rest);
  }

  lemma EscapeCons(bytes: seq<Byte>)
    requires |bytes| > 0
    ensures EscapeBytes(bytes) == ['%', HexDigit(bytes[0] / 16), HexDigit(bytes[0] % 16)] + EscapeBytes(bytes[1..])
  {
  }

  lemma EscapeLayout(pre: string, post: string)
    requires |pre| == 3
    ensures var s := pre + post;
            s[0] == pre[0] && s[1] == pre[1] && s[2] == pre[2] && s[3..] == post
  {
    assert (pre + post)[3..] == post;
  }

  /** The two hex digits written for a byte read back as that byte. */
  lemma HexPair(b: Byte)
    ensures IsHexDigit(HexDigit(b / 16)) && IsHexDigit(HexDigit(b % 16))
    ensures ByteOf(HexDigit(b / 16), HexDigit(b % 16)) == b
  {
    assert HexValue(HexDigit(b / 16)) == b / 16 && HexValue(HexDigit(b % 16)) == b % 16;
  }

  /** Decoding undoes the encoding of one character, whatever follows it. */
  lemma DecodeEncodedChar(c: char, rest: string)
    ensures Decode(EncodeChar(c) + rest) == Prepend([c], Decode(rest))
  {
    if IsUnreserved(c) {
      var s := EncodeChar(c) + rest;
      assert s[0] == c && s[1..] == rest;
    } else {
      DecodeEscapedChar(c, rest);
    }
  }

  lemma DecodeEscapedChar(c: char, rest: string)
    ensures Decode(EscapeBytes(Utf8(c)) + rest) == Prepend([c], Decode(rest))
  {
    Utf8Decodes(c);
    var bytes := Utf8(c);
    var n := |bytes|;
    var s := EscapeBytes(bytes) + rest;
    EscapeHead(bytes, rest);
    assert s[3 * n..] == rest;
    if n == 1 {
      assert (bytes[0] as char) == c;
    } else {
      ReadEscapedContinuations(bytes[1..], rest);
      assert [bytes[0]] + bytes[1..] == bytes;
    }
  }

  /** `decodeURIComponent(encodeURIComponent(s)) === s` for every string. */
  lemma {:induction false} DecodeEncode(s: string)
    ensures Decode(Encode(s)) == Ok(s)
  {
    if |s| > 0 {
      DecodeEncode(s[1..]);
      DecodeEncodedChar(s[0], Encode(s[1..]));
      assert [s[0]] + s[1..] == s;
    }
  }

  /** A string without `%` decodes to itself. */
  lemma {:induction false} DecodeWithoutEscapes(s: string)
    requires '%' !in s
    ensures Decode(s) == Ok(s)
  {
    if |s| > 0 {
      assert s[0] != '%';
      DecodeWithoutEscapes(s[1..]);
      assert [s[0]] + s[1..] == s;
    }
  }

  /** Unreserved characters are written as they are. */
  lemma {:induction false} EncodeUnreserved(s: string)
    requires forall i :: 0 <= i < |s| ==> IsUnreserved(s[i])
    ensures Encode(s) == s
  {
    if |s| > 0 {
      EncodeUnreserved(s[1..]);
      assert [s[0]] + s[1..] == s;
    }
  }
}

=== FILE: ViewQueries.dfy ===
/**
 * The view queries a read builds. Each option the caller sets is forwarded to the setter of
 * the same name, in a fixed order, and `reduce` is always set. `Requested` is the table
 * reading of that rule, from which both builders are assembled; the lemmas below state
 * which setter calls a query carries.
 */
module ViewQueries {
  import opened Results
  import opened JsValues
  import opened ErrorTranslator
  import opened KeyCodec
  import opened SyncCommon

  /** The view options the adapter reads, each named by its key in the sync options. */
  datatype ViewOption =
    | CustomOption | FullSetOption | GroupOption | GroupLevelOption | IdRangeOption
    | IncludeDocsOption | KeyOption | KeysOption | LimitOption | OnErrorOption | RangeOption
    | OrderOption | ReduceOption | SkipOption | StaleOption

  function Name(opt: ViewOption): string {
    match opt
    case CustomOption => "custom"
    case FullSetOption => "full_set"
    case GroupOption => "group"
    case GroupLevelOption => "group_level"
    case IdRangeOption => "id_range"
    case IncludeDocsOption => "include_docs"
    case KeyOption => "key"
    case KeysOption => "keys"
    case LimitOption => "limit"
    case OnErrorOption => "on_error"
    case RangeOption => "range"
    case OrderOption => "order"
    case ReduceOption => "reduce"
    case SkipOption => "skip"
    case StaleOption => "stale"
  }

  /** The options the newer generation forwards when set, in call order: those before the
      `reduce` setter, which is always called, and those after it. */
  const BeforeReduce: seq<ViewOption> :=
    [CustomOption, FullSetOption, GroupOption, GroupLevelOption, IdRangeOption, IncludeDocsOption,
     KeyOption, KeysOption, LimitOption, OnErrorOption, RangeOption, OrderOption]
  const AfterReduce: seq<ViewOption> := [SkipOption, StaleOption]

  /** The setter call an option turns into, with the option values it is given: the two
      range options pass their `start` and `end`, and `range` also `inclusiveEnd`. */
  function Setter(opt: ViewOption, options: Json): ViewSetting {
    var v := Prop(options, Name(opt));
    match opt
    case CustomOption => Custom(v)
    case FullSetOption => FullSet(v)
    case GroupOption => Group(v)
    case GroupLevelOption => GroupLevel(v)
    case IdRangeOption => IdRange(Prop(v, "start"), Prop(v, "end"))
    case IncludeDocsOption => IncludeDocs(v)
    case KeyOption => Key(v)
    case KeysOption => Keys(v)
    case LimitOption => Limit(v)
    case OnErrorOption => OnError(v)
    case RangeOption => Range(Prop(v, "start"), Prop(v, "end"), Prop(options, "inclusiveEnd"))
    case OrderOption => Order(v)
    case ReduceOption => Reduce(v)
    case SkipOption => Skip(v)
    case StaleOption => Stale(v)
  }

  /** Which option a setter call forwards. */
  function OptionOf(setting: ViewSetting): ViewOption {
    match setting
    case Custom(_) => CustomOption
    case FullSet(_) => FullSetOption
    case Group(_) => GroupOption
    case GroupLevel(_) => GroupLevelOption
    case IdRange(_, _) => IdRangeOption
    case IncludeDocs(_) => IncludeDocsOption
    case Key(_) => KeyOption
    case Keys(_) => KeysOption
    case Limit(_) => LimitOption
    case OnError(_) => OnErrorOption
    case Range(_, _, _) => RangeOption
    case Order(_) => OrderOption
    case Reduce(_) => ReduceOption
    case Skip(_) => SkipOption
    case Stale(_) => StaleOption
  }

  /** `if (options.<name> != null) query.<name>(...)` for each listed option, in order. */
  function Requested(options: Json, opts: seq<ViewOption>): seq<ViewSetting> {
    if |opts| == 0 then [] else SetterCall(options, opts[0]) + Requested(options, opts[1..])
  }

  /** The setter call for one option: made when the option is set, skipped otherwise. */
  function SetterCall(options: Json, opt: ViewOption): seq<ViewSetting> {
    if Present(Prop(options, Name(opt))) then [Setter(opt, options)] else []
  }

  /** A setter names the option it forwards, so different options call different setters. */
  lemma OptionOfSetter(opt: ViewOption, options: Json)
    ensures OptionOf(Setter(opt, options)) == opt
  {
  }

  lemma {:induction false} RequestedAppend(options: Json, a: seq<ViewOption>, b: seq<ViewOption>)
    ensures Requested(options, a + b) == Requested(options, a) + Requested(options, b)
  {
    if |a| == 0 {
      assert a + b == b;
    } else {
      var head := SetterCall(options, a[0]);
      RequestedCons(options, a + b);
      assert (a + b)[0] == a[0] && (a + b)[1..] == a[1..] + b;
      RequestedAppend(options, a[1..], b);
      ConcatAssoc(head, Requested(options, a[1..]), Requested(options, b));
    }
  }

  lemma RequestedCons(options: Json, opts: seq<ViewOption>)
    requires |opts| > 0
    ensures Requested(options, opts) == SetterCall(options, opts[0]) + Requested(options, opts[1..])
  {
  }

  /** An option's setter is called exactly when the option is listed and set, and every
      call forwards a listed option. */
  lemma {:induction false} RequestedIff(options: Json, opts: seq<ViewOption>, opt: ViewOption)
    ensures Setter(opt, options) in Requested(options, opts) <==> opt in opts && Present(Prop(options, Name(opt)))
    ensures forall st :: st in Requested(options, opts) ==> OptionOf(st) in opts
  {
    if |opts| > 0 {
      RequestedIff(options, opts[1..], opt);
      OptionOfSetter(opt, options);
      OptionOfSetter(opts[0], options);
      assert opts == [opts[0]] + opts[1..];
    }
  }

  /** The value of the first `reduce` setting, if any. */
  function ReduceSetting(settings: seq<ViewSetting>): Option<Json> {
    if |settings| == 0 then None
    else if settings[0].Reduce? then Some(settings[0].reduce)
    else ReduceSetting(settings[1..])
  }

  lemma {:induction false} ReduceSettingAfter(a: seq<ViewSetting>, r: Json, b: seq<ViewSetting>)
    requires forall st :: st in a ==> !st.Reduce?
    ensures ReduceSetting(a + [Reduce(r)] + b) == Some(r)
  {
    if |a| > 0 {
      assert (a + [Reduce(r)] + b)[1..] == a[1..] + [Reduce(r)] + b;
      ReduceSettingAfter(a[1..], r, b);
    }
  }

  /** The older generation's collection query: the design document defaults to the
      collection's `url` as it is (a string, or the function itself), the view name to the
      collection's default view, `custom` and `stale` are forwarded when set, and `reduce`
      is set to `options.reduce || false`. */
  function OlderView(t: Target, options: Json): (q: ViewQuery)
    ensures Truthy(t.designDocument) ==> q.designDocument == t.designDocument
    ensures !Truthy(t.designDocument) && t.urlMethod.None? ==> q.designDocument == Str(t.url)
    ensures !Truthy(t.designDocument) && t.urlMethod.Some? ==> q.designDocument == Fn(t.urlMethod.value)
    ensures q.viewName == (if Truthy(Prop(options, "viewName")) then Prop(options, "viewName") else t.defaultView)
  {
    ViewQuery(Or(t.designDocument, UrlValue(t)), Or(Prop(options, "viewName"), t.defaultView),
              Requested(options, [CustomOption]) + [Reduce(Or(Prop(options, "reduce"), Bool(false)))] +
              Requested(options, [StaleOption]))
  }

  /** The older query forwards `custom` and `stale` exactly when set, and its one `reduce`
      setting is truthy exactly when the option is, which is when the callback takes the
      reduced answer. */
  lemma OlderViewSettings(t: Target, options: Json, opt: ViewOption)
    ensures opt in {CustomOption, StaleOption} ==>
              (Setter(opt, options) in OlderView(t, options).settings <==> Present(Prop(options, Name(opt))))
    ensures ReduceSetting(OlderView(t, options).settings).Some?
    ensures Truthy(ReduceSetting(OlderView(t, options).settings).value) <==> Truthy(Prop(options, "reduce"))
  {
    var before := Requested(options, [CustomOption]);
    var after := Requested(options, [StaleOption]);
    var r := Or(Prop(options, "reduce"), Bool(false));
    RequestedIff(options, [CustomOption], opt);
    RequestedIff(options, [StaleOption], opt);
    OptionOfSetter(opt, options);
    ReduceSettingAfter(before, r, after);
  }

  /** Whether the newer generation builds a reduced query: a single model reduces unless
      `reduce` is given, and anything reduces when `reduce` is truthy. */
  predicate ReducesView(t: Target, options: Json) {
    (!t.isCollection && Nullish(Prop(options, "reduce"))) || Truthy(Prop(options, "reduce"))
  }

  /** `url.split("/")[i]`, undefined past the last part. */
  function UrlPart(url: string, i: nat): Json {
    var parts := Split(url);
    if i < |parts| then Str(parts[i]) else Undefined
  }

  const SplitNotAFunction := ErrorValue(JsError("TypeError"), Undefined, "model.url.split is not a function")

  /** `model.designDocument || model.url.split("/")[0]` and
      `model.viewName || model.url.split("/")[1]`: each default splits `url` only when the
      target's own name is falsy, and splitting a function `url` throws. */
  function ViewNames(t: Target): (r: Result<(Json, Json), ErrorValue>)
    ensures r.Err? <==> t.urlMethod.Some? && !(Truthy(t.designDocument) && Truthy(t.viewName))
    ensures r.Err? ==> r.error == SplitNotAFunction
    ensures r.Ok? && Truthy(t.designDocument) ==> r.value.0 == t.designDocument
    ensures r.Ok? && !Truthy(t.designDocument) ==> r.value.0 == Str(Split(t.url)[0])
    ensures r.Ok? && Truthy(t.viewName) ==> r.value.1 == t.viewName
    ensures r.Ok? && !Truthy(t.viewName) && |Split(t.url)| >= 2 ==> r.value.1 == Str(Split(t.url)[1])
    ensures r.Ok? && !Truthy(t.viewName) && |Split(t.url)| < 2 ==> r.value.1 == Undefined
  {
    if t.urlMethod.Some? && !(Truthy(t.designDocument) && Truthy(t.viewName)) then Err(SplitNotAFunction)
    else Ok((Or(t.designDocument, UrlPart(t.url, 0)), Or(t.viewName, UrlPart(t.url, 1))))
  }

  /** The setters of the newer generation's design-document query, with `skip` forwarded
      as evidently intended. */
  function NewerSettings(t: Target, options: Json): seq<ViewSetting> {
    Requested(options, BeforeReduce) + [Reduce(Bool(ReducesView(t, options)))] + Requested(options, AfterReduce)
  }

  /** The newer generation's design-document query: the design document and view named by
      `ViewNames`, and the setters of `NewerSettings`. */
  function NewerView(t: Target, options: Json): (r: Result<ViewQuery, ErrorValue>)
    ensures r.Err? <==> ViewNames(t).Err?
    ensures r.Err? ==> r.error == SplitNotAFunction
    ensures r.Ok? ==> r.value.designDocument == ViewNames(t).value.0 && r.value.viewName == ViewNames(t).value.1
    ensures r.Ok? ==> r.value.settings == NewerSettings(t, options)
  {
    match ViewNames(t)
    case Err(e) => Err(e)
    case Ok(names) => Ok(ViewQuery(names.0, names.1, NewerSettings(t, options)))
  }

  /** Every view option other than `reduce` reaches the newer query exactly when it is
      set, and the one `reduce` setting says whether the query reduces. */
  lemma NewerViewSettings(t: Target, options: Json, opt: ViewOption)
    ensures opt != ReduceOption ==>
              (Setter(opt, options) in NewerSettings(t, options) <==> Present(Prop(options, Name(opt))))
    ensures ReduceSetting(NewerSettings(t, options)) == Some(Bool(ReducesView(t, options)))
  {
    if opt != ReduceOption {
      NewerViewForwards(t, options, opt);
    }
    NoReduceRequested(options, BeforeReduce);
    ReduceSettingAfter(Requested(options, BeforeReduce), Bool(ReducesView(t, options)), Requested(options, AfterReduce));
  }

  /** Every option but `reduce` is forwarded before or after the `reduce` setter. */
  lemma OptionListed(opt: ViewOption)
    requires opt != ReduceOption
    ensures opt in BeforeReduce || opt in AfterReduce
  {
  }

  lemma NewerViewForwards(t: Target, options: Json, opt: ViewOption)
    requires opt != ReduceOption
    ensures Setter(opt, options) in NewerSettings(t, options) <==> Present(Prop(options, Name(opt)))
  {
    var r := Reduce(Bool(ReducesView(t, options)));
    OptionOfSetter(opt, options);
    assert Setter(opt, options) != r;
    RequestedIff(options, BeforeReduce, opt);
    RequestedIff(options, AfterReduce, opt);
    OptionListed(opt);
  }

  /** A table without `reduce` calls no `reduce` setter. */
  lemma NoReduceRequested(options: Json, opts: seq<ViewOption>)
    requires ReduceOption !in opts
    ensures forall st :: st in Requested(options, opts) ==> !st.Reduce?
  {
    forall st | st in Requested(options, opts) ensures !st.Reduce? {
      RequestedIff(options, opts, ReduceOption);
    }
  }

  /** The thrown error of reading the undeclared identifier `skip`. */
  const SkipNotDefined := ErrorValue(JsError("ReferenceError"), Undefined, "skip is not defined")

  /** The newer generation's query exactly as written: the view names are read first, and
      then the `skip` setter is handed the undeclared identifier `skip`, so setting the
      option throws. */
  function NewerViewAsWritten(t: Target, options: Json): (r: Result<ViewQuery, ErrorValue>)
    ensures NewerView(t, options).Err? ==> r == NewerView(t, options)
    ensures NewerView(t, options).Ok? ==> (r.Err? <==> Present(Prop(options, "skip")))
    ensures NewerView(t, options).Ok? && r.Err? ==> r.error == SkipNotDefined
    ensures r.Ok? ==> r == NewerView(t, options)
  {
    match NewerView(t, options)
    case Err(e) => Err(e)
    case Ok(q) => if Present(Prop(options, "skip")) then Err(SkipNotDefined) else Ok(q)
  }

  /** A page request `{skip: n}` throws as written (once the view names are read), and
      reaches the query as evidently intended. */
  lemma SkipThrowsAsWritten(t: Target, n: Json)
    requires Present(n)
    ensures ViewNames(t).Ok? ==> NewerViewAsWritten(t, Obj([("skip", n)])) == Err(SkipNotDefined)
    ensures Skip(n) in NewerSettings(t, Obj([("skip", n)]))
  {
    NewerViewSettings(t, Obj([("skip", n)]), SkipOption);
  }
}
